=== FILE: README.md ===
# Nova Poshta PHP SDK — a Dafny model of its request and response logic

This project models the deterministic core of a PHP client for the Nova
Poshta delivery API:

- **The response envelope** (`NovaPoshtaResponse`). A decoded body
  `{success, data, errors, warnings, info}` and an HTTP status become
  typed properties, with defaults for missing fields. Validation then
  runs: status first, then the `errors` list, then the `success` flag.
  Only a valid envelope is ever handed out.
- **The HTTP client** (`NovaPoshtaHttpClient`). It builds the four-key
  request envelope `{apiKey, modelName, calledMethod, methodProperties}`.
  It maps what the exchange produces to a result: a transport exception,
  a body that does not decode, or a decoded body for the validator.
- **The SDK facade** (`NovaPoshtaSDK`). It holds an optional table of
  canned responses keyed by `"Model.method"`. Each entry may carry a
  `params` predicate that uses PHP's `isset` and `!==` semantics.
  `request` answers a selected entry's `data` without validating it.
  `requestWithFullResponse` validates the entry as a response, at
  status 200 unless the entry names another. Everything else goes to the
  HTTP client unchanged.
- **The domain APIs** (`BaseApi` plus the Address, Counterparty, Document,
  Tracking and Common modules). Each wrapper is modelled as the `Call`
  it issues: a fixed model name, a method name and the property array it
  assembles from its arguments.

How PHP is represented:

- PHP values are a datatype (`PhpValue.Value`). Arrays are ordered
  sequences of key/value pairs, and datatype equality is PHP's `===`.
  `isset` and `??` treat a null entry as absent.
- A result is `Ok(value)` or `Err(failure)`. A failure is one of three:
  - `HttpError(cause, code)`, for `NovaPoshtaHttpException`;
  - `ApiError(cause, errors, listed)`, for `NovaPoshtaApiException`;
  - `TypeFault`, a PHP `TypeError` that nothing in the SDK catches.
- The HTTP exchange is a parameter of the client: a function from the
  request envelope to an `Exchange`. That is either `Transport(code)`,
  or `Reply(status, body)` where `body` is the `json_decode` result, if
  any.
- The wrappers' property arrays are described by a field table
  (`PhpValue.Fields`). It is the ordered list of keys with the value
  stored under each, or nothing when an `if ($x !== null)` assignment is
  skipped. `Exactly(p, fs)` states the array's contents: every listed key
  holds its value when given and is absent otherwise, and no other key is
  present. `BuildInOrder` adds that the keys appear in source order.

The `@throws` annotations name only `NovaPoshtaApiException` and
`NovaPoshtaHttpException` (app/Http/NovaPoshtaHttpClient.php:50, 96;
app/NovaPoshtaSDK.php:179-180, 240-241; app/Http/NovaPoshtaResponse.php:53).
This model follows the code, which can also raise a `TypeError`, in four
cases:

- The constructor assigns the body's fields to typed properties before it
  validates. So an array-typed field holding a scalar raises a
  `TypeError`, even at a non-200 status. A scalar `success` is coerced to
  a boolean instead, because that file has no strict types.
- A body that decodes to a non-array, such as `null` or `5`, cannot be
  passed to the constructor from the strict-types client.
- A mock whose `data` is not an array cannot be returned through
  `request`'s `array` return type.
- `requestWithFullResponse` passes a mock's `response` and its
  `statusCode ?? 200` to the constructor's `array` and `int` parameters,
  so a missing or non-array `response`, or a `statusCode` that is not an
  integer, cannot be passed.

The model reports all four as `TypeFault`.

## Model

| member | source | states |
|---|---|---|
| PhpValue.LookupFound | app/NovaPoshtaSDK.php:186-187 | a value found under a key is one of the array's own entries, stored under that key |
| PhpValue.LookupKeys | app/NovaPoshtaSDK.php:186 | a key is found exactly when it is one of the array's keys |
| PhpValue.LookupUnique | app/NovaPoshtaSDK.php:203-204 | in an array with distinct keys, the entry at any position is the one a lookup of its key finds |
| PhpValue.Get | app/Http/NovaPoshtaResponse.php:59-63 | `$a[$k] ?? …` yields a value exactly when the key is set to something other than null, and then it is the stored value |
| PhpValue.Offset | app/NovaPoshtaSDK.php:191 | an offset inside `isset`/`??` is found exactly when the value is an array whose key is set to something other than null, and then it is the stored value |
| PhpValue.Put | app/Api/AddressApi.php:76-90 | after `$a[$k] = $v` the key holds `v`, and every other key holds what it held before |
| PhpValue.PutAppends | app/Api/AddressApi.php:76-90 | assigning a key that is not yet present appends it at the end |
| PhpValue.PutKeys | app/Api/AddressApi.php:76-90 | an assignment adds its key to the array's key set and no other key |
| PhpValue.PutIfSet | app/Api/AddressApi.php:76-78 | a guarded assignment sets the key exactly when the argument is non-null, and leaves every other key alone |
| PhpValue.List | app/Api/TrackingApi.php:33 | a list literal has keys 0, 1, … holding the elements in order, with no key repeated |
| PhpValue.BuildExactly | app/Api/AddressApi.php:72-93 | a literal followed by guarded assignments of distinct keys holds exactly the given fields: each key holds its argument when non-null and is absent otherwise, and no other key is present |
| PhpValue.BuildInOrder | app/Api/AddressApi.php:72-93 | those assignments never overwrite one another, so the array is the given entries in source order |
| PhpValue.ExactlyEmpty | app/Api/AddressApi.php:72-93 | when every guarded argument is null, the property array is empty |
| Response.Coalesce | app/Http/NovaPoshtaResponse.php:59-63 | `$raw[$name] ?? $default` is the stored value when the field is set to something other than null, and the default otherwise |
| Response.ToBool | app/Http/NovaPoshtaResponse.php:59 | storing into the `bool` property: `false`, `0`, `0.0`, `""` and `"0"` become false, every other scalar becomes true, and null or an array raises a TypeError |
| Response.Fill | app/Http/NovaPoshtaResponse.php:55-63 | filling the properties succeeds exactly when all five fields fit their types, and otherwise raises a TypeError. The raw body and status are kept. A present `data`, `errors`, `warnings` or `info` array is stored as is, and a present `success` is stored as its boolean conversion. A missing `success` becomes false, and missing `data`, `errors`, `warnings` and `info` become empty arrays |
| Response.Validate | app/Http/NovaPoshtaResponse.php:73-97 | validation passes exactly for status 200, no errors and success true. Status ≠ 200 gives an HTTP error carrying that status. Otherwise non-empty errors give an API error carrying exactly those errors. Otherwise `success` false gives an API error with an empty errors list whose message lists "Unknown API error" |
| Response.Construct | app/Http/NovaPoshtaResponse.php:55-66 | a constructed response is valid (status 200, `isSuccess()` true, no errors) and keeps the raw body. Construction succeeds exactly when the body is well typed, the status is 200, the errors are empty and success is true. The data is the body's `data` or empty. An ill-typed body raises a TypeError |
| Response.StatusCheckedFirst | app/Http/NovaPoshtaResponse.php:75-80 | with any well-typed body, a status other than 200 fails as an HTTP error whose code is that status |
| Response.ErrorsCheckedBeforeSuccess | app/Http/NovaPoshtaResponse.php:82-87 | at status 200 a non-empty `errors` list fails as an API error carrying exactly that list, even when `success` is true |
| Response.UnknownApiErrorReported | app/Http/NovaPoshtaResponse.php:89-95 | at status 200 with no errors and `success` false, the API error has an empty errors list and its message lists "Unknown API error" |
| Response.MissingSuccessRejected | app/Http/NovaPoshtaResponse.php:59-95 | a body without `success` is rejected at any status |
| HttpClient.RequestEnvelope | app/Http/NovaPoshtaHttpClient.php:54-59 | the request body holds exactly `apiKey`, `modelName`, `calledMethod` and `methodProperties`, in that order, the last passed through unchanged |
| HttpClient.Receive | app/Http/NovaPoshtaHttpClient.php:116-130 | a transport exception gives an HTTP error with its code. An undecodable body gives an HTTP error with the status, before any validation. A decoded array goes to the validator, and a decoded value that is not an array raises a TypeError at the constructor's `array` parameter. Any success is a valid response |
| HttpClient.RequestWithFullResponse | app/Http/NovaPoshtaHttpClient.php:98-131 | the full variant answers only valid responses |
| HttpClient.Request | app/Http/NovaPoshtaHttpClient.php:52-87 | for the same exchange, `request` answers the `getData()` of what `requestWithFullResponse` answers, or fails with the same failure |
| HttpClient.UndecodableBodyIsHttpError | app/Http/NovaPoshtaHttpClient.php:68-75 | a body that fails to decode gives an HTTP error carrying the reply's status, whatever that status is |
| HttpClient.TransportFaultIsHttpError | app/Http/NovaPoshtaHttpClient.php:80-86 | a transport exception gives an HTTP error carrying the exception's code |
| HttpClient.ValidationFailurePropagates | app/Http/NovaPoshtaHttpClient.php:77-80 | a validation failure reaches the caller as the validator raised it, not rewrapped |
| HttpClient.SuccessReturnsData | app/Http/NovaPoshtaHttpClient.php:77-79 | a valid success body at status 200 yields exactly its `data` |
| Sdk.New | app/NovaPoshtaSDK.php:61 | a facade starts with no mock table and the client it was given |
| Sdk.SetMockResponses | app/NovaPoshtaSDK.php:153-158 | installing a table replaces the whole table |
| Sdk.ClearMockResponses | app/NovaPoshtaSDK.php:165-170 | clearing leaves no table at all |
| Sdk.MockKey | app/NovaPoshtaSDK.php:185 | the table key is the model name, a dot, then the method name |
| Sdk.MockKeyInjective | app/NovaPoshtaSDK.php:185 | for model names without a dot, distinct (model, method) pairs have distinct table keys |
| Sdk.MatchesAll | app/NovaPoshtaSDK.php:192-199 | a predicate array matches exactly when every one of its pairs is set in the properties with an identical value |
| Sdk.Rescan | app/NovaPoshtaSDK.php:203-218 | the rescan finds nothing exactly when no entry under the key has a matching predicate; otherwise it answers the first such entry in table order |
| Sdk.Select | app/NovaPoshtaSDK.php:186-227 | an entry is selected only when the key is set in the table, and the selected entry is stored in the table under that key |
| Sdk.MockData | app/NovaPoshtaSDK.php:215 | an entry without a response, or whose response has no `data`, answers an empty array; `data` that is not an array raises a TypeError through the `array` return type, and that is the only failure |
| Sdk.MockEnvelope | app/NovaPoshtaSDK.php:284-287 | a mock answered through the full variant is always a valid response; an entry that is not an array, a missing or non-array `response`, or a `statusCode` that is not an integer raises a TypeError |
| Sdk.Request | app/NovaPoshtaSDK.php:182-231 | `request` answers either what the HTTP client answers for the same arguments, or the data of a table entry stored under the call's key |
| Sdk.RequestWithFullResponse | app/NovaPoshtaSDK.php:243-291 | the full variant answers either the HTTP client's answer for the same arguments, or a table entry under the call's key validated as a response; any success is valid |
| Sdk.NoTablePassesThrough | app/NovaPoshtaSDK.php:186-230 | with no table, both entry points answer what the HTTP client answers for the same arguments |
| Sdk.NoEntryPassesThrough | app/NovaPoshtaSDK.php:186-230 | with no set entry under the call's key, both entry points pass through unchanged |
| Sdk.EntryWithoutParamsAnswers | app/NovaPoshtaSDK.php:191-227 | an entry without `params` answers every call under its key, whatever the properties |
| Sdk.MatchingEntryAnswers | app/NovaPoshtaSDK.php:191-227 | an entry whose predicate holds answers the call |
| Sdk.EmptyPredicateMatches | app/NovaPoshtaSDK.php:193 | an empty predicate matches every call |
| Sdk.ScalarPredicateMatches | app/NovaPoshtaSDK.php:192-199 | a `params` value that is not an array admits every call, since `foreach` over it visits nothing |
| Sdk.ScalarPredicateEntryAnswers | app/NovaPoshtaSDK.php:191-227 | an entry whose `params` is a scalar answers every call under its key, through both entry points |
| Sdk.NullPredicateNeverMatches | app/NovaPoshtaSDK.php:194 | a predicate holding a null value never matches, since `isset` rejects null |
| Sdk.RescanAfterMismatch | app/NovaPoshtaSDK.php:202-218 | after the entry under a key fails its predicate, the rescan finds no other entry, because keys are unique |
| Sdk.MismatchSelectsNothing | app/NovaPoshtaSDK.php:191-222 | when the entry under the key fails its predicate, no entry is selected |
| Sdk.MismatchFallsThrough | app/NovaPoshtaSDK.php:202-222 | on a predicate mismatch both entry points go to the HTTP client with the same arguments |
| Sdk.RequestSkipsValidation | app/NovaPoshtaSDK.php:227 | `request` answers a mock's `data` as is: `success`, `errors` and `statusCode` make no difference |
| Sdk.FullResponseValidatesMock | app/NovaPoshtaSDK.php:284-287 | the full variant validates the mock's response at status 200 when the entry names none |
| Sdk.NamedStatusValidatesMock | app/NovaPoshtaSDK.php:284-287 | an entry naming an integer `statusCode` is validated at that status |
| Sdk.FailedMockOnlyFailsInFull | app/NovaPoshtaSDK.php:227-287 | a mock with `success` false answers `request` with its data but fails the full variant with an API error |
| Sdk.ClearRestoresPassThrough | app/NovaPoshtaSDK.php:165-170 | after clearing, every call reaches the HTTP client unchanged |
| BaseApi.ForwardsUnchanged | app/Api/BaseApi.php:50-67 | both calls forward model, method and properties to the HTTP client unchanged and answer what it answers |
| BaseApi.NoPropertiesSendsEmpty | app/Api/BaseApi.php:50-64 | a call without properties sends an empty `methodProperties` |
| BaseApi.SendAnswersData | app/Api/BaseApi.php:50-67 | a wrapper's call answers the data of the full variant's response for the same call, or the same failure |
| AddressApi.SearchSettlements | app/Api/AddressApi.php:25-32 | model "Address", method "searchSettlements", exactly CityName, Limit and Page, with page 1 and limit 20 by default |
| AddressApi.SearchSettlementStreets | app/Api/AddressApi.php:43-51 | exactly SettlementRef, StreetName, Limit and Page, with the same defaults |
| AddressApi.GetAreas | app/Api/AddressApi.php:58-61 | method "getAreas" with an empty property array |
| AddressApi.GetCities | app/Api/AddressApi.php:72-93 | Ref, FindByString, Page and Limit, each present exactly when its argument is non-null, and nothing else |
| AddressApi.GetCitiesDefaultsSendNothing | app/Api/AddressApi.php:72-93 | with every argument null the property array is empty |
| AddressApi.GetWarehouses | app/Api/AddressApi.php:105-135 | CityRef, FindByString, Page, Limit and TypeOfWarehouseRef, each present exactly when non-null |
| AddressApi.GetWarehouseTypes | app/Api/AddressApi.php:142-145 | method "getWarehouseTypes" with an empty property array |
| AddressApi.GetStreet | app/Api/AddressApi.php:156-179 | CityRef always; FindByString, Page and Limit exactly when non-null |
| AddressApi.Save | app/Api/AddressApi.php:191-213 | CounterpartyRef, StreetRef and BuildingNumber always; Flat and Note exactly when non-null |
| AddressApi.Delete | app/Api/AddressApi.php:221-226 | exactly `{Ref}` |
| CounterpartyApi.Save | app/Api/CounterpartyApi.php:30-63 | CounterpartyType and CounterpartyProperty "Recipient" always. A private person also gets FirstName, LastName and MiddleName even when null, and Phone and Email exactly when non-null. An organization also gets CompanyName and EDRPOU even when null. Any other type gets nothing more |
| CounterpartyApi.PersonNamesAlwaysSent | app/Api/CounterpartyApi.php:45-48 | a private person saved without names sends all three name keys holding null |
| CounterpartyApi.OrganizationSendsNoPersonFields | app/Api/CounterpartyApi.php:57-60 | an organization's call carries none of a person's keys, whatever was passed |
| CounterpartyApi.Update | app/Api/CounterpartyApi.php:79-127 | Ref, CounterpartyType and CounterpartyProperty always; each optional field exactly when it is non-null and belongs to the type |
| CounterpartyApi.Delete | app/Api/CounterpartyApi.php:135-140 | exactly `{Ref}` |
| CounterpartyApi.GetCounterpartyAddresses | app/Api/CounterpartyApi.php:149-155 | exactly Ref and CounterpartyProperty, which defaults to "Recipient" |
| CounterpartyApi.GetCounterpartyContactPersons | app/Api/CounterpartyApi.php:164-170 | exactly Ref and CounterpartyProperty, which defaults to "Recipient" |
| CounterpartyApi.GetCounterpartyOptions | app/Api/CounterpartyApi.php:178-183 | exactly `{Ref}` |
| CounterpartyApi.GetCounterparties | app/Api/CounterpartyApi.php:194-214 | FindByString and CounterpartyProperty always; Page and Limit exactly when non-null |
| DocumentApi.Save | app/Api/DocumentApi.php:21-24 | model "InternetDocument"; the caller's properties go out entry for entry |
| DocumentApi.Delete | app/Api/DocumentApi.php:32-37 | exactly `{DocumentRefs}` holding the reference |
| DocumentApi.PackCalculate | app/Api/DocumentApi.php:84-88 | exactly `{PackRef}` holding the package type |
| DocumentApi.Seat | app/Api/DocumentApi.php:90-99 | a seat holds exactly the weight and the three volumetric sizes, in source order |
| DocumentApi.PackOf | app/Api/DocumentApi.php:84-88 | PackCalculate is sent exactly when a package type is given, and holds it as PackRef |
| DocumentApi.SeatsOf | app/Api/DocumentApi.php:90-99 | OptionsSeat is sent exactly when width, height and length are all given, as a one-seat list |
| DocumentApi.GetDocumentPrice | app/Api/DocumentApi.php:55-102 | CitySender, CityRecipient, Weight, Cost and ServiceType always; CargoType, SeatsAmount, PackCalculate and OptionsSeat exactly when their arguments are given |
| DocumentApi.SeatCarriesWeight | app/Api/DocumentApi.php:90-99 | OptionsSeat is a list of one seat whose `weight` is the Weight the call sends |
| DocumentApi.GetDocumentDeliveryDate | app/Api/DocumentApi.php:113-130 | CitySender, CityRecipient and ServiceType always; DateTime exactly when non-null |
| DocumentApi.GetDocumentList | app/Api/DocumentApi.php:141-166 | DateTimeFrom, DateTimeTo, Page and Limit, each exactly when non-null |
| DocumentApi.GetDocumentListDefaultsSendNothing | app/Api/DocumentApi.php:141-166 | with every argument null the property array is empty |
| DocumentApi.GetDocument | app/Api/DocumentApi.php:174-179 | exactly `{Ref}` |
| DocumentApi.GenerateReport | app/Api/DocumentApi.php:188-199 | DocumentRefs always; Type exactly when non-null |
| TrackingApi.StatusDocument | app/Api/TrackingApi.php:24-30 | the tracked document holds DocumentNumber, then Phone exactly when one is given, in that order |
| TrackingApi.GetStatusDocuments | app/Api/TrackingApi.php:22-35 | model "TrackingDocument"; `Documents` alone, a one-element list of that document |
| TrackingApi.GetStatusDocumentsBatch | app/Api/TrackingApi.php:43-48 | method "getStatusDocuments" with the given list unchanged under `Documents` |
| TrackingApi.GetStatusHistory | app/Api/TrackingApi.php:56-65 | `Documents` alone, a one-element list holding the number |
| TrackingApi.SingleIsBatchOfOne | app/Api/TrackingApi.php:22-48 | tracking one document is the batch call with a one-element list |
| TrackingApi.NoPhoneNumberOnly | app/Api/TrackingApi.php:24-30 | without a phone the document is `{DocumentNumber}` alone |
| TrackingApi.NoPhoneIsBatchOfNumber | app/Api/TrackingApi.php:22-48 | tracking without a phone is the batch call with `[{DocumentNumber}]` |
| TrackingApi.HistoryAsksLikeTracking | app/Api/TrackingApi.php:56-65 | the history call sends the same properties as tracking without a phone, so never a Phone |
| CommonApi.Get | app/Api/CommonApi.php:22-191 | model "Common"; each parameterless getter calls its own method with an empty property array |
| CommonApi.GettersDistinct | app/Api/CommonApi.php:22-191 | no two parameterless getters call the same method |
| CommonApi.GetCargoDescriptionList | app/Api/CommonApi.php:35-52 | FindByString, Page and Limit, each exactly when non-null |
| CommonApi.GetTimeIntervals | app/Api/CommonApi.php:121-134 | RecipientCityRef and DateTime, each exactly when non-null |
| CommonApi.GetPackList | app/Api/CommonApi.php:144-161 | Length, Width and Height from the three string arguments, each exactly when non-null |

## Left out

- The HTTP transport is a parameter of the client. That covers the HTTP library, the base URI, the 30-second timeout and the `http_errors` flag (app/Http/NovaPoshtaHttpClient.php:36-40).
- `json_decode` is not modelled as a parser. The exchange carries its decoded result, or nothing when decoding reported an error.
- Exception message texts are left out, except that the "request failed" message lists "Unknown API error". The exception classes become the `HttpError` and `ApiError` failures. Chained previous exceptions are not modelled.
- The configuration object is not modelled, because it only holds values. The API key is an input to the request envelope.
- The facade's constructor calls `setSdk` on each API module (app/NovaPoshtaSDK.php:80-84), but `BaseApi` defines no such method, so the wiring is not modelled. The modules call the HTTP client directly, never the mock table (`BaseApi.ForwardsUnchanged`).
- Sdk.New: as written, `new NovaPoshtaSDK(...)` stops with an `Error` at its first call to the undefined `setSdk` (app/NovaPoshtaSDK.php:80), so no facade is ever built. `Sdk.New` models the state a facade has once it exists: its HTTP client and a null mock table (app/NovaPoshtaSDK.php:61). The constructor's failure is not modelled.
- `NovaPoshtaResponse`, `NovaPoshtaApiException` and `NovaPoshtaConfig` declare namespaces under `NovaPoshta\SDK`, while every other class, `NovaPoshtaHttpException` included, is under `AUnhurian\NovaPoshta\SDK`. That is packaging, not behaviour.
- Floating-point values are exact reals, so NaN, which is never `===` to itself, is not modelled.
- PHP normalises numeric-string keys such as `"5"` to integer keys. That is not modelled: array keys are taken as already normalised.
- Warnings are not modelled. These are the warnings from `foreach` over a non-array `params` value and from reading an offset of a non-array. Their effect on control flow is modelled: a non-array predicate matches, and the offset reads as unset.
- Wrapper arguments are taken at their declared types. PHP's coercion of scalar arguments depends on the strict-types mode of the calling file, and it is not modelled. Neither is the `TypeError` a wrapper's typed parameters raise.
- DocumentApi.GetDocumentPrice: `Cost` is taken as an integer and `Weight` as a string, as declared. A float cost that a caller without strict types has coerced is not modelled.
- Sdk.Request: states that the answer comes from the HTTP client or from an entry under the call's key.
- Sdk.RequestWithFullResponse: likewise states only that the answer is the HTTP client's or a validated entry under the call's key.
- For both, which of the two is decided by `Select`, whose cases are stated by the lemmas `NoTablePassesThrough`, `NoEntryPassesThrough`, `EntryWithoutParamsAnswers`, `MatchingEntryAnswers`, `ScalarPredicateEntryAnswers` and `MismatchFallsThrough`.
- A mock entry that is a string makes PHP raise an error when its `response` offset is read. `Sdk.MockEnvelope` reports it as the same `TypeFault` as any other entry that is not an array.
- The response accessors (app/Http/NovaPoshtaResponse.php:104-167) are the fields of `Response.Envelope`.
- The exceptions' own accessors, such as `getErrors`, are the fields of the failure values.

=== FILE: address_api.dfy ===
/** Address lookup and counterparty addresses (class `AddressApi`, model "Address"). */
module AddressApi {
  import opened PhpValue
  import opened BaseApi

  const ModelName: string := "Address"

  /** `searchSettlements($search, $page = 1, $limit = 20)`: all three keys, always. */
  function SearchSettlements(search: string, page: int := 1, limit: int := 20): (c: Call)
    ensures c.modelName == ModelName && c.calledMethod == "searchSettlements"
    ensures Exactly(c.props, [("CityName", Some(Str(search))),
                              ("Limit", Some(Int(limit))),
                              ("Page", Some(Int(page)))])
  {
    var fs := [("CityName", Some(Str(search))), ("Limit", Some(Int(limit))), ("Page", Some(Int(page)))];
    BuildExactly(fs);
    Call(ModelName, "searchSettlements", Build(fs))
  }

  /** `searchSettlementStreets($settlementRef, $search, $page = 1, $limit = 20)` */
  function SearchSettlementStreets(settlementRef: string, search: string, page: int := 1, limit: int := 20): (c: Call)
    ensures c.modelName == ModelName && c.calledMethod == "searchSettlementStreets"
    ensures Exactly(c.props, [("SettlementRef", Some(Str(settlementRef))),
                              ("StreetName", Some(Str(search))),
                              ("Limit", Some(Int(limit))),
                              ("Page", Some(Int(page)))])
  {
    var fs := [("SettlementRef", Some(Str(settlementRef))), ("StreetName", Some(Str(search))),
               ("Limit", Some(Int(limit))), ("Page", Some(Int(page)))];
    BuildExactly(fs);
    Call(ModelName, "searchSettlementStreets", Build(fs))
  }

  /** `getAreas()`: no properties. */
  function GetAreas(): (c: Call)
    ensures c.modelName == ModelName && c.calledMethod == "getAreas"
    ensures c.props == []
  {
    Call(ModelName, "getAreas", NoProperties)
  }

  /** `getCities(?$ref, ?$findByString, ?$page, ?$limit)`: each key only when its argument is given. */
  function GetCities(ref: Option<string> := None, findByString: Option<string> := None,
                     page: Option<int> := None, limit: Option<int> := None): (c: Call)
    ensures c.modelName == ModelName && c.calledMethod == "getCities"
    ensures Exactly(c.props, [("Ref", OptStr(ref)),
                              ("FindByString", OptStr(findByString)),
                              ("Page", OptInt(page)),
                              ("Limit", OptInt(limit))])
  {
    var fs := [("Ref", OptStr(ref)), ("FindByString", OptStr(findByString)),
               ("Page", OptInt(page)), ("Limit", OptInt(limit))];
    BuildExactly(fs);
    Call(ModelName, "getCities", Build(fs))
  }

  /** Called without arguments, `getCities` sends an empty property array. */
  lemma GetCitiesDefaultsSendNothing()
    ensures GetCities().props == []
  {
    var c := GetCities();
    ExactlyEmpty(c.props, [("Ref", None), ("FindByString", None), ("Page", None), ("Limit", None)]);
  }

  /** `getWarehouses(?$cityRef, ?$findByString, ?$page, ?$limit, ?$typeOfWarehouseRef)` */
  function GetWarehouses(cityRef: Option<string> := None, findByString: Option<string> := None,
                         page: Option<int> := None, limit: Option<int> := None,
                         typeOfWarehouseRef: Option<string> := None): (c: Call)
    ensures c.modelName == ModelName && c.calledMethod == "getWarehouses"
    ensures Exactly(c.props, [("CityRef", OptStr(cityRef)),
                              ("FindByString", OptStr(findByString)),
                              ("Page", OptInt(page)),
                              ("Limit", OptInt(limit)),
                              ("TypeOfWarehouseRef", OptStr(typeOfWarehouseRef))])
  {
    var fs := [("CityRef", OptStr(cityRef)), ("FindByString", OptStr(findByString)),
               ("Page", OptInt(page)), ("Limit", OptInt(limit)),
               ("TypeOfWarehouseRef", OptStr(typeOfWarehouseRef))];
    BuildExactly(fs);
    Call(ModelName, "getWarehouses", Build(fs))
  }

  /** `getWarehouseTypes()`: no properties. */
  function GetWarehouseTypes(): (c: Call)
    ensures c.modelName == ModelName && c.calledMethod == "getWarehouseTypes"
    ensures c.props == []
  {
    Call(ModelName, "getWarehouseTypes", NoProperties)
  }

  /** `getStreet($cityRef, ?$findByString, ?$page, ?$limit)` */
  function GetStreet(cityRef: string, findByString: Option<string> := None,
                     page: Option<int> := None, limit: Option<int> := None): (c: Call)
    ensures c.modelName == ModelName && c.calledMethod == "getStreet"
    ensures Exactly(c.props, [("CityRef", Some(Str(cityRef))),
                              ("FindByString", OptStr(findByString)),
                              ("Page", OptInt(page)),
                              ("Limit", OptInt(limit))])
  {
    var fs := [("CityRef", Some(Str(cityRef))), ("FindByString", OptStr(findByString)),
               ("Page", OptInt(page)), ("Limit", OptInt(limit))];
    BuildExactly(fs);
    Call(ModelName, "getStreet", Build(fs))
  }

  /** `save($counterpartyRef, $streetRef, $buildingNumber, ?$flat, ?$note)`: a counterparty address. */
  function Save(counterpartyRef: string, streetRef: string, buildingNumber: string,
                flat: Option<string> := None, note: Option<string> := None): (c: Call)
    ensures c.modelName == ModelName && c.calledMethod == "save"
    ensures Exactly(c.props, [("CounterpartyRef", Some(Str(counterpartyRef))),
                              ("StreetRef", Some(Str(streetRef))),
                              ("BuildingNumber", Some(Str(buildingNumber))),
                              ("Flat", OptStr(flat)),
                              ("Note", OptStr(note))])
  {
    var fs := [("CounterpartyRef", Some(Str(counterpartyRef))), ("StreetRef", Some(Str(streetRef))),
               ("BuildingNumber", Some(Str(buildingNumber))), ("Flat", OptStr(flat)), ("Note", OptStr(note))];
    BuildExactly(fs);
    Call(ModelName, "save", Build(fs))
  }

  /** `delete($ref)` */
  function Delete(ref: string): (c: Call)
    ensures c.modelName == ModelName && c.calledMethod == "delete"
    ensures Exactly(c.props, [("Ref", Some(Str(ref)))])
  {
    var fs := [("Ref", Some(Str(ref)))];
    BuildExactly(fs);
    Call(ModelName, "delete", Build(fs))
  }
}

=== FILE: base_api.dfy ===
/**
  What every domain API module shares (class `BaseApi`): a fixed model name
  and two calls that hand `(modelName, calledMethod, methodProperties)` to
  the HTTP client. The wrappers of the domain modules are modelled as the
  `Call` they make; `Send` and `SendWithFullResponse` are the two ways a
  wrapper issues it.
 */
module BaseApi {
  import opened PhpValue
  import opened Failures
  import Response
  import HttpClient

  /** One call to the remote API: model, method and the assembled properties. */
  datatype Call = Call(modelName: string, calledMethod: string, props: PhpArray)

  /** The default `$methodProperties = []` of a call made without properties. */
  const NoProperties: PhpArray := []

  /** `request($calledMethod, $methodProperties)` of a module with the given model name. */
  function Request(client: HttpClient.Client, modelName: string, calledMethod: string,
                   props: PhpArray := NoProperties): Result<PhpArray>
  {
    HttpClient.Request(client, modelName, calledMethod, props)
  }

  /** `requestWithFullResponse($calledMethod, $methodProperties)`. */
  function RequestWithFullResponse(client: HttpClient.Client, modelName: string, calledMethod: string,
                                   props: PhpArray := NoProperties): Result<Response.Envelope>
  {
    HttpClient.RequestWithFullResponse(client, modelName, calledMethod, props)
  }

  /** A wrapper issuing its call through `request`, as every wrapper does. */
  function Send(client: HttpClient.Client, c: Call): Result<PhpArray> {
    Request(client, c.modelName, c.calledMethod, c.props)
  }

  /** A call issued through `requestWithFullResponse`. */
  function SendWithFullResponse(client: HttpClient.Client, c: Call): Result<Response.Envelope> {
    RequestWithFullResponse(client, c.modelName, c.calledMethod, c.props)
  }

  /**
    The module's calls reach the HTTP client with their arguments unchanged
    and answer what it answers: the client is never bypassed for the mock
    table, whose facade the module is not wired to.
   */
  lemma ForwardsUnchanged(client: HttpClient.Client, modelName: string, calledMethod: string, props: PhpArray)
    ensures Request(client, modelName, calledMethod, props) ==
              HttpClient.Request(client, modelName, calledMethod, props)
    ensures RequestWithFullResponse(client, modelName, calledMethod, props) ==
              HttpClient.RequestWithFullResponse(client, modelName, calledMethod, props)
  {
  }

  /** A call made without properties sends an empty `methodProperties`. */
  lemma NoPropertiesSendsEmpty(client: HttpClient.Client, modelName: string, calledMethod: string)
    ensures Request(client, modelName, calledMethod) == HttpClient.Request(client, modelName, calledMethod, [])
    ensures RequestWithFullResponse(client, modelName, calledMethod) ==
              HttpClient.RequestWithFullResponse(client, modelName, calledMethod, [])
  {
  }

  /**
    What a wrapper's call answers is what the HTTP client answers for the
    envelope carrying the wrapper's model, method and properties: the
    `data` of a valid response, or the failure of the full variant.
   */
  lemma SendAnswersData(client: HttpClient.Client, c: Call)
    ensures var full := SendWithFullResponse(client, c);
            Send(client, c) == (if full.Ok? then Ok(full.value.data) else Err(full.failure))
  {
  }
}

=== FILE: common_api.dfy ===
/** Reference books (class `CommonApi`, model "Common"). */
module CommonApi {
  import opened PhpValue
  import opened BaseApi

  const ModelName: string := "Common"

  /** The reference books fetched without any properties. */
  datatype Listing =
    | CargoTypes
    | MessageCodeText
    | ServiceTypes
    | PalletsList
    | TypesOfPayers
    | TypesOfPayment
    | PaymentForms
    | TiresWheelsList
    | BackwardDeliveryCargoTypes
    | OwnershipFormsList

  /** The API method each getter calls: `getCargoTypes()` calls "getCargoTypes", and so on. */
  function MethodOf(l: Listing): string {
    match l
    case CargoTypes => "getCargoTypes"
    case MessageCodeText => "getMessageCodeText"
    case ServiceTypes => "getServiceTypes"
    case PalletsList => "getPalletsList"
    case TypesOfPayers => "getTypesOfPayers"
    case TypesOfPayment => "getTypesOfPayment"
    case PaymentForms => "getPaymentForms"
    case TiresWheelsList => "getTiresWheelsList"
    case BackwardDeliveryCargoTypes => "getBackwardDeliveryCargoTypes"
    case OwnershipFormsList => "getOwnershipFormsList"
  }

  /** A parameterless getter: its own method, no properties. */
  function Get(l: Listing): (c: Call)
    ensures c.modelName == ModelName && c.calledMethod == MethodOf(l)
    ensures c.props == []
  {
    Call(ModelName, MethodOf(l), NoProperties)
  }

  /** No two getters call the same method. */
  lemma GettersDistinct(l1: Listing, l2: Listing)
    requires l1 != l2
    ensures Get(l1).calledMethod != Get(l2).calledMethod
  {
  }

  /** `getCargoDescriptionList(?$findByString, ?$page, ?$limit)` */
  function GetCargoDescriptionList(findByString: Option<string> := None, page: Option<int> := None,
                                   limit: Option<int> := None): (c: Call)
    ensures c.modelName == ModelName && c.calledMethod == "getCargoDescriptionList"
    ensures Exactly(c.props, [("FindByString", OptStr(findByString)),
                              ("Page", OptInt(page)),
                              ("Limit", OptInt(limit))])
  {
    var fs := [("FindByString", OptStr(findByString)), ("Page", OptInt(page)), ("Limit", OptInt(limit))];
    BuildExactly(fs);
    Call(ModelName, "getCargoDescriptionList", Build(fs))
  }

  /** `getTimeIntervals(?$recipientCityRef, ?$dateTime)` */
  function GetTimeIntervals(recipientCityRef: Option<string> := None, dateTime: Option<string> := None): (c: Call)
    ensures c.modelName == ModelName && c.calledMethod == "getTimeIntervals"
    ensures Exactly(c.props, [("RecipientCityRef", OptStr(recipientCityRef)),
                              ("DateTime", OptStr(dateTime))])
  {
    var fs := [("RecipientCityRef", OptStr(recipientCityRef)), ("DateTime", OptStr(dateTime))];
    BuildExactly(fs);
    Call(ModelName, "getTimeIntervals", Build(fs))
  }

  /** `getPackList(?$lengthString, ?$widthString, ?$heightString)`: the dimensions as strings. */
  function GetPackList(length: Option<string> := None, width: Option<string> := None,
                       height: Option<string> := None): (c: Call)
    ensures c.modelName == ModelName && c.calledMethod == "getPackList"
    ensures Exactly(c.props, [("Length", OptStr(length)),
                              ("Width", OptStr(width)),
                              ("Height", OptStr(height))])
  {
    var fs := [("Length", OptStr(length)), ("Width", OptStr(width)), ("Height", OptStr(height))];
    BuildExactly(fs);
    Call(ModelName, "getPackList", Build(fs))
  }
}

=== FILE: counterparty_api.dfy ===
/** Customers and organizations (class `CounterpartyApi`, model "Counterparty"). */
module CounterpartyApi {
  import opened PhpValue
  import opened BaseApi

  const ModelName: string := "Counterparty"

  /** The counterparty property `save` and `update` always send. */
  const Recipient: string := "Recipient"

  const PrivatePerson: string := "PrivatePerson"
  const Organization: string := "Organization"

  /**
    `save($counterpartyType, ?$firstName, ?$lastName, ?$middleName, ?$phone,
    ?$email, ?$companyName, ?$edrpou)`. A private person always gets the
    three name keys, null when not given; an organization always gets its
    name and code, null when not given; any other type gets neither.
   */
  function Save(counterpartyType: string, firstName: Option<string> := None, lastName: Option<string> := None,
                middleName: Option<string> := None, phone: Option<string> := None, email: Option<string> := None,
                companyName: Option<string> := None, edrpou: Option<string> := None): (c: Call)
    ensures c.modelName == ModelName && c.calledMethod == "save"
    ensures counterpartyType == PrivatePerson ==>
              Exactly(c.props, [("CounterpartyType", Some(Str(counterpartyType))),
                                ("CounterpartyProperty", Some(Str(Recipient))),
                                ("FirstName", Some(StrOrNull(firstName))),
                                ("LastName", Some(StrOrNull(lastName))),
                                ("MiddleName", Some(StrOrNull(middleName))),
                                ("Phone", OptStr(phone)),
                                ("Email", OptStr(email))])
    ensures counterpartyType == Organization ==>
              Exactly(c.props, [("CounterpartyType", Some(Str(counterpartyType))),
                                ("CounterpartyProperty", Some(Str(Recipient))),
                                ("CompanyName", Some(StrOrNull(companyName))),
                                ("EDRPOU", Some(StrOrNull(edrpou)))])
    ensures counterpartyType != PrivatePerson && counterpartyType != Organization ==>
              Exactly(c.props, [("CounterpartyType", Some(Str(counterpartyType))),
                                ("CounterpartyProperty", Some(Str(Recipient)))])
  {
    var fs :=
      if counterpartyType == PrivatePerson then
        [("CounterpartyType", Some(Str(counterpartyType))), ("CounterpartyProperty", Some(Str(Recipient))),
         ("FirstName", Some(StrOrNull(firstName))), ("LastName", Some(StrOrNull(lastName))),
         ("MiddleName", Some(StrOrNull(middleName))), ("Phone", OptStr(phone)), ("Email", OptStr(email))]
      else if counterpartyType == Organization then
        [("CounterpartyType", Some(Str(counterpartyType))), ("CounterpartyProperty", Some(Str(Recipient))),
         ("CompanyName", Some(StrOrNull(companyName))), ("EDRPOU", Some(StrOrNull(edrpou)))]
      else
        [("CounterpartyType", Some(Str(counterpartyType))), ("CounterpartyProperty", Some(Str(Recipient)))];
    BuildExactly(fs);
    Call(ModelName, "save", Build(fs))
  }

  /**
    A private person saved without names still sends all three name keys,
    each holding null.
   */
  lemma PersonNamesAlwaysSent(phone: Option<string>, email: Option<string>)
    ensures var p := Save(PrivatePerson, None, None, None, phone, email).props;
            Field(p, "FirstName") == Some(Null) && Field(p, "LastName") == Some(Null)
            && Field(p, "MiddleName") == Some(Null)
  {
    var fs := [("CounterpartyType", Some(Str(PrivatePerson))), ("CounterpartyProperty", Some(Str(Recipient))),
               ("FirstName", Some(StrOrNull(None))), ("LastName", Some(StrOrNull(None))),
               ("MiddleName", Some(StrOrNull(None))), ("Phone", OptStr(phone)), ("Email", OptStr(email))];
    assert fs[2].0 == "FirstName" && fs[3].0 == "LastName" && fs[4].0 == "MiddleName";
  }

  /** The property table an organization's `save` sends. */
  function OrganizationFields(counterpartyType: string, companyName: Option<string>, edrpou: Option<string>): Fields {
    [("CounterpartyType", Some(Str(counterpartyType))), ("CounterpartyProperty", Some(Str(Recipient))),
     ("CompanyName", Some(StrOrNull(companyName))), ("EDRPOU", Some(StrOrNull(edrpou)))]
  }

  lemma NoPersonFieldsIn(p: PhpArray, companyName: Option<string>, edrpou: Option<string>)
    requires Exactly(p, OrganizationFields(Organization, companyName, edrpou))
    ensures Field(p, "FirstName") == None && Field(p, "LastName") == None && Field(p, "MiddleName") == None
    ensures Field(p, "Phone") == None && Field(p, "Email") == None
  {
    var fs := OrganizationFields(Organization, companyName, edrpou);
    Unlisted(p, fs, "FirstName");
    Unlisted(p, fs, "LastName");
    Unlisted(p, fs, "MiddleName");
    Unlisted(p, fs, "Phone");
    Unlisted(p, fs, "Email");
  }

  /** An organization's call carries none of a private person's keys, whatever was passed. */
  lemma OrganizationSendsNoPersonFields(firstName: Option<string>, lastName: Option<string>,
                                        middleName: Option<string>, phone: Option<string>, email: Option<string>,
                                        companyName: Option<string>, edrpou: Option<string>)
    ensures var p := Save(Organization, firstName, lastName, middleName, phone, email, companyName, edrpou).props;
            Field(p, "FirstName") == None && Field(p, "LastName") == None && Field(p, "MiddleName") == None
            && Field(p, "Phone") == None && Field(p, "Email") == None
  {
    var p := Save(Organization, firstName, lastName, middleName, phone, email, companyName, edrpou).props;
    assert Exactly(p, OrganizationFields(Organization, companyName, edrpou));
    NoPersonFieldsIn(p, companyName, edrpou);
  }

  /**
    `update($ref, $counterpartyType, …)`: the reference, the type and the
    property always; among the optional fields only those of the given type,
    and each only when it is given.
   */
  function Update(ref: string, counterpartyType: string, firstName: Option<string> := None,
                  lastName: Option<string> := None, middleName: Option<string> := None,
                  phone: Option<string> := None, email: Option<string> := None,
                  companyName: Option<string> := None, edrpou: Option<string> := None): (c: Call)
    ensures c.modelName == ModelName && c.calledMethod == "update"
    ensures counterpartyType == PrivatePerson ==>
              Exactly(c.props, [("Ref", Some(Str(ref))),
                                ("CounterpartyType", Some(Str(counterpartyType))),
                                ("CounterpartyProperty", Some(Str(Recipient))),
                                ("FirstName", OptStr(firstName)),
                                ("LastName", OptStr(lastName)),
                                ("MiddleName", OptStr(middleName)),
                                ("Phone", OptStr(phone)),
                                ("Email", OptStr(email))])
    ensures counterpartyType == Organization ==>
              Exactly(c.props, [("Ref", Some(Str(ref))),
                                ("CounterpartyType", Some(Str(counterpartyType))),
                                ("CounterpartyProperty", Some(Str(Recipient))),
                                ("CompanyName", OptStr(companyName)),
                                ("EDRPOU", OptStr(edrpou))])
    ensures counterpartyType != PrivatePerson && counterpartyType != Organization ==>
              Exactly(c.props, [("Ref", Some(Str(ref))),
                                ("CounterpartyType", Some(Str(counterpartyType))),
                                ("CounterpartyProperty", Some(Str(Recipient)))])
  {
    var fs :=
      if counterpartyType == PrivatePerson then
        [("Ref", Some(Str(ref))), ("CounterpartyType", Some(Str(counterpartyType))),
         ("CounterpartyProperty", Some(Str(Recipient))), ("FirstName", OptStr(firstName)),
         ("LastName", OptStr(lastName)), ("MiddleName", OptStr(middleName)),
         ("Phone", OptStr(phone)), ("Email", OptStr(email))]
      else if counterpartyType == Organization then
        [("Ref", Some(Str(ref))), ("CounterpartyType", Some(Str(counterpartyType))),
         ("CounterpartyProperty", Some(Str(Recipient))), ("CompanyName", OptStr(companyName)),
         ("EDRPOU", OptStr(edrpou))]
      else
        [("Ref", Some(Str(ref))), ("CounterpartyType", Some(Str(counterpartyType))),
         ("CounterpartyProperty", Some(Str(Recipient)))];
    BuildExactly(fs);
    Call(ModelName, "update", Build(fs))
  }

  /** `delete($ref)` */
  function Delete(ref: string): (c: Call)
    ensures c.modelName == ModelName && c.calledMethod == "delete"
    ensures Exactly(c.props, [("Ref", Some(Str(ref)))])
  {
    var fs := [("Ref", Some(Str(ref)))];
    BuildExactly(fs);
    Call(ModelName, "delete", Build(fs))
  }

  /** `getCounterpartyAddresses($ref, $counterpartyProperty = 'Recipient')` */
  function GetCounterpartyAddresses(ref: string, counterpartyProperty: string := Recipient): (c: Call)
    ensures c.modelName == ModelName && c.calledMethod == "getCounterpartyAddresses"
    ensures Exactly(c.props, [("Ref", Some(Str(ref))), ("CounterpartyProperty", Some(Str(counterpartyProperty)))])
  {
    var fs := [("Ref", Some(Str(ref))), ("CounterpartyProperty", Some(Str(counterpartyProperty)))];
    BuildExactly(fs);
    Call(ModelName, "getCounterpartyAddresses", Build(fs))
  }

  /** `getCounterpartyContactPersons($ref, $counterpartyProperty = 'Recipient')` */
  function GetCounterpartyContactPersons(ref: string, counterpartyProperty: string := Recipient): (c: Call)
    ensures c.modelName == ModelName && c.calledMethod == "getCounterpartyContactPersons"
    ensures Exactly(c.props, [("Ref", Some(Str(ref))), ("CounterpartyProperty", Some(Str(counterpartyProperty)))])
  {
    var fs := [("Ref", Some(Str(ref))), ("CounterpartyProperty", Some(Str(counterpartyProperty)))];
    BuildExactly(fs);
    Call(ModelName, "getCounterpartyContactPersons", Build(fs))
  }

  /** `getCounterpartyOptions($ref)` */
  function GetCounterpartyOptions(ref: string): (c: Call)
    ensures c.modelName == ModelName && c.calledMethod == "getCounterpartyOptions"
    ensures Exactly(c.props, [("Ref", Some(Str(ref)))])
  {
    var fs := [("Ref", Some(Str(ref)))];
    BuildExactly(fs);
    Call(ModelName, "getCounterpartyOptions", Build(fs))
  }

  /** `getCounterparties($findByString, $counterpartyProperty = 'Recipient', ?$page, ?$limit)` */
  function GetCounterparties(findByString: string, counterpartyProperty: string := Recipient,
                             page: Option<int> := None, limit: Option<int> := None): (c: Call)
    ensures c.modelName == ModelName && c.calledMethod == "getCounterparties"
    ensures Exactly(c.props, [("FindByString", Some(Str(findByString))),
                              ("CounterpartyProperty", Some(Str(counterpartyProperty))),
                              ("Page", OptInt(page)),
                              ("Limit", OptInt(limit))])
  {
    var fs := [("FindByString", Some(Str(findByString))), ("CounterpartyProperty", Some(Str(counterpartyProperty))),
               ("Page", OptInt(page)), ("Limit", OptInt(limit))];
    BuildExactly(fs);
    Call(ModelName, "getCounterparties", Build(fs))
  }
}

=== FILE: document_api.dfy ===
/** Shipping documents, the TTN waybills (class `DocumentApi`, model "InternetDocument"). */
module DocumentApi {
  import opened PhpValue
  import opened BaseApi

  const ModelName: string := "InternetDocument"

  /** `save(array $params)`: the caller's properties go out as given. */
  function Save(params: PhpArray): (c: Call)
    ensures c.modelName == ModelName && c.calledMethod == "save"
    ensures forall k :: Lookup(c.props, k) == Lookup(params, k)
    ensures |c.props| == |params| && forall i :: 0 <= i < |params| ==> c.props[i] == params[i]
  {
    Call(ModelName, "save", params)
  }

  /** `delete($documentRef)`: the reference under `DocumentRefs`. */
  function Delete(documentRef: string): (c: Call)
    ensures c.modelName == ModelName && c.calledMethod == "delete"
    ensures Exactly(c.props, [("DocumentRefs", Some(Str(documentRef)))])
  {
    var fs := [("DocumentRefs", Some(Str(documentRef)))];
    BuildExactly(fs);
    Call(ModelName, "delete", Build(fs))
  }

  /** `['PackRef' => $packageType]` */
  function PackCalculate(packageType: string): (p: PhpArray)
    ensures Exactly(p, [("PackRef", Some(Str(packageType)))])
  {
    var fs := [("PackRef", Some(Str(packageType)))];
    BuildExactly(fs);
    Build(fs)
  }

  /** The one seat of `OptionsSeat`: the shipment's weight and the three volumetric sizes. */
  function Seat(weight: string, width: int, height: int, length: int): (p: PhpArray)
    ensures Exactly(p, [("weight", Some(Str(weight))),
                        ("volumetricWidth", Some(Int(width))),
                        ("volumetricHeight", Some(Int(height))),
                        ("volumetricLength", Some(Int(length)))])
    ensures p == Present([("weight", Some(Str(weight))),
                          ("volumetricWidth", Some(Int(width))),
                          ("volumetricHeight", Some(Int(height))),
                          ("volumetricLength", Some(Int(length)))])
  {
    var fs := [("weight", Some(Str(weight))), ("volumetricWidth", Some(Int(width))),
               ("volumetricHeight", Some(Int(height))), ("volumetricLength", Some(Int(length)))];
    BuildExactly(fs);
    BuildInOrder(fs);
    Build(fs)
  }

  /** `PackCalculate` is sent exactly when a package type is given. */
  function PackOf(packageType: Option<string>): (x: Option<Value>)
    ensures x.Some? <==> packageType.Some?
    ensures x.Some? ==> x.value.Arr? && Field(x.value.entries, "PackRef") == Some(Str(packageType.value))
  {
    if packageType.Some? then Some(Arr(PackCalculate(packageType.value))) else None
  }

  /** `OptionsSeat` is sent exactly when all three sizes are given: a list of one seat. */
  function SeatsOf(weight: string, width: Option<int>, height: Option<int>, length: Option<int>): (x: Option<Value>)
    ensures x.Some? <==> width.Some? && height.Some? && length.Some?
    ensures x.Some? ==> x == Some(Arr(List([Arr(Seat(weight, width.value, height.value, length.value))])))
  {
    if width.Some? && height.Some? && length.Some? then
      Some(Arr(List([Arr(Seat(weight, width.value, height.value, length.value))])))
    else None
  }

  /**
    `getDocumentPrice($citySender, $cityRecipient, $weight, $cost,
    $serviceType, ?$cargoType, ?$seatsAmount, ?$packageType, ?$width,
    ?$height, ?$length)`: five keys always, the rest only when given.
   */
  function GetDocumentPrice(citySender: string, cityRecipient: string, weight: string, cost: int,
                            serviceType: string, cargoType: Option<int> := None,
                            seatsAmount: Option<int> := None, packageType: Option<string> := None,
                            width: Option<int> := None, height: Option<int> := None,
                            length: Option<int> := None): (c: Call)
    ensures c.modelName == ModelName && c.calledMethod == "getDocumentPrice"
    ensures Exactly(c.props, [("CitySender", Some(Str(citySender))),
                              ("CityRecipient", Some(Str(cityRecipient))),
                              ("Weight", Some(Str(weight))),
                              ("Cost", Some(Int(cost))),
                              ("ServiceType", Some(Str(serviceType))),
                              ("CargoType", OptInt(cargoType)),
                              ("SeatsAmount", OptInt(seatsAmount)),
                              ("PackCalculate", PackOf(packageType)),
                              ("OptionsSeat", SeatsOf(weight, width, height, length))])
  {
    var fs := [("CitySender", Some(Str(citySender))), ("CityRecipient", Some(Str(cityRecipient))),
               ("Weight", Some(Str(weight))), ("Cost", Some(Int(cost))), ("ServiceType", Some(Str(serviceType))),
               ("CargoType", OptInt(cargoType)), ("SeatsAmount", OptInt(seatsAmount)),
               ("PackCalculate", PackOf(packageType)), ("OptionsSeat", SeatsOf(weight, width, height, length))];
    BuildExactly(fs);
    Call(ModelName, "getDocumentPrice", Build(fs))
  }

  /**
    With all three sizes given, `OptionsSeat` is a list of exactly one seat
    whose `weight` is the `Weight` the call sends.
   */
  lemma SeatCarriesWeight(weight: string, width: int, height: int, length: int)
    ensures var x := SeatsOf(weight, Some(width), Some(height), Some(length));
            && x.Some? && x.value.Arr? && |x.value.entries| == 1
            && x.value.entries[0] == (IntKey(0), Arr(Seat(weight, width, height, length)))
            && Field(Seat(weight, width, height, length), "weight") == Some(Str(weight))
  {
    var seat := [("weight", Some(Str(weight))), ("volumetricWidth", Some(Int(width))),
                 ("volumetricHeight", Some(Int(height))), ("volumetricLength", Some(Int(length)))];
    assert Field(Seat(weight, width, height, length), seat[0].0) == seat[0].1;
  }

  /** `getDocumentDeliveryDate($citySender, $cityRecipient, $serviceType, ?$dateTime)` */
  function GetDocumentDeliveryDate(citySender: string, cityRecipient: string, serviceType: string,
                                   dateTime: Option<string> := None): (c: Call)
    ensures c.modelName == ModelName && c.calledMethod == "getDocumentDeliveryDate"
    ensures Exactly(c.props, [("CitySender", Some(Str(citySender))),
                              ("CityRecipient", Some(Str(cityRecipient))),
                              ("ServiceType", Some(Str(serviceType))),
                              ("DateTime", OptStr(dateTime))])
  {
    var fs := [("CitySender", Some(Str(citySender))), ("CityRecipient", Some(Str(cityRecipient))),
               ("ServiceType", Some(Str(serviceType))), ("DateTime", OptStr(dateTime))];
    BuildExactly(fs);
    Call(ModelName, "getDocumentDeliveryDate", Build(fs))
  }

  /** `getDocumentList(?$dateTimeFrom, ?$dateTimeTo, ?$page, ?$limit)`: all four as strings. */
  function GetDocumentList(dateTimeFrom: Option<string> := None, dateTimeTo: Option<string> := None,
                           page: Option<string> := None, limit: Option<string> := None): (c: Call)
    ensures c.modelName == ModelName && c.calledMethod == "getDocumentList"
    ensures Exactly(c.props, [("DateTimeFrom", OptStr(dateTimeFrom)),
                              ("DateTimeTo", OptStr(dateTimeTo)),
                              ("Page", OptStr(page)),
                              ("Limit", OptStr(limit))])
  {
    var fs := [("DateTimeFrom", OptStr(dateTimeFrom)), ("DateTimeTo", OptStr(dateTimeTo)),
               ("Page", OptStr(page)), ("Limit", OptStr(limit))];
    BuildExactly(fs);
    Call(ModelName, "getDocumentList", Build(fs))
  }

  /** Called without arguments, `getDocumentList` sends an empty property array. */
  lemma GetDocumentListDefaultsSendNothing()
    ensures GetDocumentList().props == []
  {
    ExactlyEmpty(GetDocumentList().props,
                 [("DateTimeFrom", None), ("DateTimeTo", None), ("Page", None), ("Limit", None)]);
  }

  /** `getDocument($ref)` */
  function GetDocument(ref: string): (c: Call)
    ensures c.modelName == ModelName && c.calledMethod == "getDocument"
    ensures Exactly(c.props, [("Ref", Some(Str(ref)))])
  {
    var fs := [("Ref", Some(Str(ref)))];
    BuildExactly(fs);
    Call(ModelName, "getDocument", Build(fs))
  }

  /** `generateReport($ref, ?$type)`: the reference under `DocumentRefs`, and the format when given. */
  function GenerateReport(ref: string, reportType: Option<string> := None): (c: Call)
    ensures c.modelName == ModelName && c.calledMethod == "generateReport"
    ensures Exactly(c.props, [("DocumentRefs", Some(Str(ref))), ("Type", OptStr(reportType))])
  {
    var fs := [("DocumentRefs", Some(Str(ref))), ("Type", OptStr(reportType))];
    BuildExactly(fs);
    Call(ModelName, "generateReport", Build(fs))
  }
}

=== FILE: failures.dfy ===
/**
  The outcomes an SDK call can end in. The library signals failure by
  throwing one of two exceptions; here they are the two main variants of
  `Failure`, and a call returns `Result` instead of throwing.
 */
module Failures {
  import opened PhpValue

  /** Why a `NovaPoshtaHttpException` was thrown. */
  datatype HttpCause =
    | BadStatus       // the HTTP status was not 200
    | Undecodable     // the body was not valid JSON
    | TransportFault  // the HTTP library raised an exception

  /** Why a `NovaPoshtaApiException` was thrown. */
  datatype ApiCause =
    | ReturnedErrors  // the envelope carried a non-empty `errors` list
    | RequestFailed   // the envelope's `success` was false

  datatype Failure =
      /** `NovaPoshtaHttpException`: `code` is the HTTP status or the transport fault's code. */
    | HttpError(httpCause: HttpCause, code: int)
      /**
        `NovaPoshtaApiException`: `errors` is the list the exception carries;
        `listed` is the list its message joins after the cause's prefix.
       */
    | ApiError(apiCause: ApiCause, errors: PhpArray, listed: PhpArray)
      /**
        A PHP `TypeError` the library does not catch: a value of the wrong
        type reached a typed property, parameter or return value.
       */
    | TypeFault

  datatype Result<+T> = Ok(value: T) | Err(failure: Failure)
}

=== FILE: http_client.dfy ===
/**
  The transport (class `NovaPoshtaHttpClient`). It posts the four-key
  request envelope and turns what comes back into a result. The HTTP
  exchange itself is a parameter: `post` maps the envelope that would be
  JSON-encoded and sent to what came back.
 */
module HttpClient {
  import opened PhpValue
  import opened Failures
  import Response

  /** What one POST produces, as the client sees it. */
  datatype Exchange =
      /** The HTTP library threw; `code` is the exception's code. */
    | Transport(code: int)
      /**
        A reply arrived with this status; `body` is `json_decode($body, true)`,
        or nothing when `json_last_error()` reported a decoding error.
       */
    | Reply(status: int, body: Option<Value>)

  /** A configured client: the configuration's API key and the network it posts to. */
  datatype Client = Client(apiKey: string, post: PhpArray -> Exchange)

  /** The request body `{apiKey, modelName, calledMethod, methodProperties}`. */
  function RequestEnvelope(apiKey: string, modelName: string, calledMethod: string,
                           methodProperties: PhpArray): (r: PhpArray)
    ensures Exactly(r, [("apiKey", Some(Str(apiKey))),
                        ("modelName", Some(Str(modelName))),
                        ("calledMethod", Some(Str(calledMethod))),
                        ("methodProperties", Some(Arr(methodProperties)))])
    ensures r == Present([("apiKey", Some(Str(apiKey))),
                          ("modelName", Some(Str(modelName))),
                          ("calledMethod", Some(Str(calledMethod))),
                          ("methodProperties", Some(Arr(methodProperties)))])
  {
    var fs := [("apiKey", Some(Str(apiKey))), ("modelName", Some(Str(modelName))),
               ("calledMethod", Some(Str(calledMethod))), ("methodProperties", Some(Arr(methodProperties)))];
    BuildExactly(fs);
    BuildInOrder(fs);
    Build(fs)
  }

  /**
    The body of the `try` block after the POST: a decoding error is reported
    with the status before the envelope is looked at; a decoded value that is
    not an array cannot be passed to the response constructor. Only transport
    exceptions are caught and rewrapped; everything else propagates as is.
   */
  function Receive(x: Exchange): (r: Result<Response.Envelope>)
    ensures x.Transport? ==> r == Err(HttpError(TransportFault, x.code))
    ensures x.Reply? && x.body.None? ==> r == Err(HttpError(Undecodable, x.status))
    ensures x.Reply? && x.body.Some? && x.body.value.Arr? ==>
              r == Response.Construct(x.body.value.entries, x.status)
    ensures x.Reply? && x.body.Some? && !x.body.value.Arr? ==> r == Err(TypeFault)
    ensures r.Ok? ==> Response.Valid(r.value)
  {
    match x
    case Transport(code) => Err(HttpError(TransportFault, code))
    case Reply(status, None) => Err(HttpError(Undecodable, status))
    case Reply(status, Some(Arr(raw))) => Response.Construct(raw, status)
    case Reply(_, Some(_)) => Err(TypeFault)
  }

  /** `requestWithFullResponse`: the validated envelope. */
  function RequestWithFullResponse(c: Client, modelName: string, calledMethod: string,
                                   methodProperties: PhpArray := []): (r: Result<Response.Envelope>)
    ensures r.Ok? ==> Response.Valid(r.value)
  {
    Receive(c.post(RequestEnvelope(c.apiKey, modelName, calledMethod, methodProperties)))
  }

  /** `request`: the same exchange, answering only the envelope's `data`. */
  function Request(c: Client, modelName: string, calledMethod: string,
                   methodProperties: PhpArray := []): (r: Result<PhpArray>)
    ensures var full := RequestWithFullResponse(c, modelName, calledMethod, methodProperties);
            r == (if full.Ok? then Ok(full.value.data) else Err(full.failure))
  {
    var x := c.post(RequestEnvelope(c.apiKey, modelName, calledMethod, methodProperties));
    match x
    case Transport(code) => Err(HttpError(TransportFault, code))
    case Reply(status, None) => Err(HttpError(Undecodable, status))
    case Reply(status, Some(Arr(raw))) =>
      (match Response.Construct(raw, status)
       case Ok(e) => Ok(e.data)
       case Err(f) => Err(f))
    case Reply(_, Some(_)) => Err(TypeFault)
  }

  /** A body that does not decode fails with its status, whatever that status is. */
  lemma UndecodableBodyIsHttpError(c: Client, modelName: string, calledMethod: string, props: PhpArray)
    requires c.post(RequestEnvelope(c.apiKey, modelName, calledMethod, props)).Reply?
    requires c.post(RequestEnvelope(c.apiKey, modelName, calledMethod, props)).body.None?
    ensures Request(c, modelName, calledMethod, props) ==
              Err(HttpError(Undecodable, c.post(RequestEnvelope(c.apiKey, modelName, calledMethod, props)).status))
  {
  }

  /** A transport exception becomes an HTTP error with the exception's code. */
  lemma TransportFaultIsHttpError(c: Client, modelName: string, calledMethod: string, props: PhpArray)
    requires c.post(RequestEnvelope(c.apiKey, modelName, calledMethod, props)).Transport?
    ensures Request(c, modelName, calledMethod, props) ==
              Err(HttpError(TransportFault, c.post(RequestEnvelope(c.apiKey, modelName, calledMethod, props)).code))
  {
  }

  /** A decoded envelope that fails validation is reported with the validator's own failure. */
  lemma ValidationFailurePropagates(c: Client, modelName: string, calledMethod: string,
                                    props: PhpArray, raw: PhpArray, status: int)
    requires c.post(RequestEnvelope(c.apiKey, modelName, calledMethod, props)) == Reply(status, Some(Arr(raw)))
    requires Response.Construct(raw, status).Err?
    ensures Request(c, modelName, calledMethod, props) == Err(Response.Construct(raw, status).failure)
  {
  }

  /** A valid success body yields exactly its `data`. */
  lemma SuccessReturnsData(c: Client, modelName: string, calledMethod: string,
                           props: PhpArray, raw: PhpArray, data: PhpArray)
    requires c.post(RequestEnvelope(c.apiKey, modelName, calledMethod, props)) == Reply(200, Some(Arr(raw)))
    requires Response.WellTyped(raw)
    requires Get(raw, "success") == Some(Bool(true))
    requires Get(raw, "errors") == None || Get(raw, "errors") == Some(Arr([]))
    requires Get(raw, "data") == Some(Arr(data))
    ensures Request(c, modelName, calledMethod, props) == Ok(data)
  {
  }
}

=== FILE: php_value.dfy ===
/**
  PHP values as they reach the SDK: the result of `json_decode($body, true)`,
  the property maps the API wrappers assemble, and the mock table. A PHP
  array is an ordered map whose keys are integers or strings; two values are
  identical (`===`) exactly when they are equal as Dafny datatype values, so
  nested arrays compare key by key, value by value, in order.
 */
module PhpValue {

  datatype Option<+T> = None | Some(value: T)

  /** An array key: PHP keeps integer keys and string keys apart. */
  datatype Key = IntKey(i: int) | StrKey(s: string)

  datatype Value =
    | Null
    | Bool(b: bool)
    | Int(n: int)
    | Float(x: real)
    | Str(s: string)
    | Arr(entries: seq<(Key, Value)>)

  /** An ordered PHP array. */
  type PhpArray = seq<(Key, Value)>

  /** Every PHP array has pairwise distinct keys. */
  ghost predicate Unique(a: PhpArray) {
    forall i, j :: 0 <= i < j < |a| ==> a[i].0 != a[j].0
  }

  function Keys(a: PhpArray): set<Key> {
    set i | 0 <= i < |a| :: a[i].0
  }

  /** `array_key_exists($k, $a)` together with the value stored there. */
  function Lookup(a: PhpArray, k: Key): Option<Value> {
    if |a| == 0 then None
    else if a[0].0 == k then Some(a[0].1)
    else Lookup(a[1..], k)
  }

  /** What a lookup finds is one of the array's entries. */
  lemma {:induction false} LookupFound(a: PhpArray, k: Key)
    ensures Lookup(a, k).Some? ==> exists i :: 0 <= i < |a| && a[i] == (k, Lookup(a, k).value)
  {
    if |a| > 0 && a[0].0 != k {
      LookupFound(a[1..], k);
      if Lookup(a, k).Some? {
        var i :| 0 <= i < |a[1..]| && a[1..][i] == (k, Lookup(a, k).value);
        assert a[i + 1] == a[1..][i];
      }
    }
  }

  /** A key is found exactly when it is one of the array's keys. */
  lemma {:induction false} LookupKeys(a: PhpArray, k: Key)
    ensures Lookup(a, k).Some? <==> k in Keys(a)
  {
    if |a| > 0 {
      KeysCons(a[0], a[1..]);
      assert a == [a[0]] + a[1..];
      LookupKeys(a[1..], k);
    }
  }

  /** The entry under a literal string key. */
  function Field(a: PhpArray, name: string): Option<Value> {
    Lookup(a, StrKey(name))
  }

  /** `isset($a[$k])`: the key is present and its value is not null. */
  predicate Isset(a: PhpArray, k: Key) {
    Lookup(a, k).Some? && Lookup(a, k).value != Null
  }

  /** `$a[$name] ?? …` on an array: the value when it is set, otherwise nothing. */
  function Get(a: PhpArray, name: string): (r: Option<Value>)
    ensures r.Some? <==> Isset(a, StrKey(name))
    ensures r.Some? ==> Field(a, name) == r
  {
    if Isset(a, StrKey(name)) then Lookup(a, StrKey(name)) else None
  }

  /**
    `$v[$name] ?? …` on any value: only an array has offsets that `isset`
    sees; on null, booleans, numbers and strings (for a non-numeric name)
    the offset is unset.
   */
  function Offset(v: Value, name: string): (r: Option<Value>)
    ensures r.Some? ==> v.Arr? && r.value != Null
    ensures r.Some? <==> v.Arr? && Isset(v.entries, StrKey(name))
    ensures r.Some? ==> r == Field(v.entries, name)
  {
    if v.Arr? then Get(v.entries, name) else None
  }

  /**
    `$a[$k] = $v`: an existing key keeps its position and takes the new
    value; a new key is appended at the end.
   */
  function Put(a: PhpArray, k: Key, v: Value): (r: PhpArray)
    ensures Lookup(r, k) == Some(v)
    ensures forall k' :: k' != k ==> Lookup(r, k') == Lookup(a, k')
  {
    if |a| == 0 then [(k, v)]
    else if a[0].0 == k then [(k, v)] + a[1..]
    else
      var r := [a[0]] + Put(a[1..], k, v);
      assert r[1..] == Put(a[1..], k, v);
      r
  }

  /** A key not yet present is appended at the end. */
  lemma {:induction false} PutAppends(a: PhpArray, k: Key, v: Value)
    requires Lookup(a, k) == None
    ensures Put(a, k, v) == a + [(k, v)]
  {
    if |a| > 0 {
      assert a == [a[0]] + a[1..];
      PutAppends(a[1..], k, v);
    }
  }

  /** `if ($x !== null) { $a['name'] = $x; }` */
  function PutIfSet(a: PhpArray, name: string, x: Option<Value>): (r: PhpArray)
    ensures Field(r, name) == (if x.Some? then x else Field(a, name))
    ensures forall k' :: k' != StrKey(name) ==> Lookup(r, k') == Lookup(a, k')
  {
    if x.Some? then Put(a, StrKey(name), x.value) else a
  }

  lemma {:induction false} PutKeys(a: PhpArray, k: Key, v: Value)
    ensures Keys(Put(a, k, v)) == Keys(a) + {k}
  {
    if |a| == 0 {
      assert Put(a, k, v) == [(k, v)];
      assert Keys([(k, v)]) == {k} by { KeysCons((k, v), []); }
    } else {
      assert a == [a[0]] + a[1..];
      KeysCons(a[0], a[1..]);
      if a[0].0 == k {
        KeysCons((k, v), a[1..]);
      } else {
        PutKeys(a[1..], k, v);
        KeysCons(a[0], Put(a[1..], k, v));
      }
    }
  }

  /** A PHP list literal `[v0, v1, …]`: keys 0, 1, … in order. */
  function List(vs: seq<Value>): (r: PhpArray)
    ensures |r| == |vs|
    ensures forall i :: 0 <= i < |vs| ==> r[i] == (IntKey(i), vs[i])
    ensures Unique(r)
  {
    seq(|vs|, i requires 0 <= i < |vs| => (IntKey(i), vs[i]))
  }

  function OptStr(x: Option<string>): Option<Value> {
    if x.Some? then Some(Str(x.value)) else None
  }

  function OptInt(x: Option<int>): Option<Value> {
    if x.Some? then Some(Int(x.value)) else None
  }

  /** A nullable string argument stored as is: null stays null. */
  function StrOrNull(x: Option<string>): Value {
    if x.Some? then Str(x.value) else Null
  }

  lemma KeysCons(e: (Key, Value), s: PhpArray)
    ensures Keys([e] + s) == {e.0} + Keys(s)
  {
    var c := [e] + s;
    forall k | k in Keys(c) ensures k in {e.0} + Keys(s) {
      var i :| 0 <= i < |c| && c[i].0 == k;
      if i > 0 { assert c[i] == s[i - 1]; }
    }
    forall k | k in Keys(s) ensures k in Keys(c) {
      var i :| 0 <= i < |s| && s[i].0 == k;
      assert c[i + 1] == s[i];
    }
    assert c[0] == e;
  }

  /** In a PHP array with distinct keys, the entry at any position is the one found by key. */
  lemma {:induction false} LookupUnique(a: PhpArray, j: int)
    requires Unique(a)
    requires 0 <= j < |a|
    ensures Lookup(a, a[j].0) == Some(a[j].1)
  {
    if j > 0 {
      assert a[0].0 != a[j].0;
      assert a[1..][j - 1] == a[j];
      LookupUnique(a[1..], j - 1);
    }
  }

  /**
    An array assembled the way the API wrappers assemble their properties:
    a literal of mandatory entries followed by `if ($x !== null)`
    assignments, in source order. Each field is a string key with the value
    stored under it, or nothing when the assignment is skipped.
   */
  type Fields = seq<(string, Option<Value>)>

  ghost predicate DistinctNames(fs: Fields) {
    forall i, j :: 0 <= i < j < |fs| ==> fs[i].0 != fs[j].0
  }

  /**
    `p` holds exactly the given fields: every listed key maps to its value
    when one is given and is absent when not, and no other key is present.
   */
  ghost predicate Exactly(p: PhpArray, fs: Fields) {
    && (forall i :: 0 <= i < |fs| ==> Field(p, fs[i].0) == fs[i].1)
    && (forall k: Key :: (k.IntKey? || forall i :: 0 <= i < |fs| ==> fs[i].0 != k.s) ==> Lookup(p, k) == None)
  }

  /** The array the assignments produce, starting from the empty array. */
  function Build(fs: Fields): PhpArray {
    if |fs| == 0 then []
    else PutIfSet(Build(fs[..|fs| - 1]), fs[|fs| - 1].0, fs[|fs| - 1].1)
  }

  /** The entries that are given, in order, as fresh keys append them. */
  function Present(fs: Fields): PhpArray {
    if |fs| == 0 then []
    else
      var last := fs[|fs| - 1];
      Present(fs[..|fs| - 1]) + (if last.1.Some? then [(StrKey(last.0), last.1.value)] else [])
  }

  /** With distinct names, the assignments produce exactly the given fields. */
  lemma {:induction false} BuildExactly(fs: Fields)
    requires DistinctNames(fs)
    ensures Exactly(Build(fs), fs)
  {
    if |fs| > 0 {
      var init := fs[..|fs| - 1];
      assert DistinctNames(init);
      BuildExactly(init);
      var p := Build(fs);
      forall i | 0 <= i < |fs| ensures Field(p, fs[i].0) == fs[i].1 {
        if i < |fs| - 1 { assert init[i] == fs[i]; }
      }
      forall k: Key | k.IntKey? || forall i :: 0 <= i < |fs| ==> fs[i].0 != k.s
        ensures Lookup(p, k) == None
      {
        if k.StrKey? {
          forall i | 0 <= i < |init| ensures init[i].0 != k.s { assert init[i] == fs[i]; }
        }
      }
    }
  }

  /**
    With distinct names, no assignment overwrites an earlier one: the result
    is the given entries in source order, which is also the order in which
    `json_encode` writes them.
   */
  lemma {:induction false} BuildInOrder(fs: Fields)
    requires DistinctNames(fs)
    ensures Build(fs) == Present(fs)
  {
    if |fs| > 0 {
      var init := fs[..|fs| - 1];
      var last := fs[|fs| - 1];
      assert DistinctNames(init);
      BuildInOrder(init);
      if last.1.Some? {
        BuildExactly(init);
        forall i | 0 <= i < |init| ensures init[i].0 != last.0 { assert init[i] == fs[i]; }
        PutAppends(Build(init), StrKey(last.0), last.1.value);
      }
    }
  }

  /** A key none of the fields names is absent. */
  lemma Unlisted(p: PhpArray, fs: Fields, name: string)
    requires Exactly(p, fs)
    requires forall i :: 0 <= i < |fs| ==> fs[i].0 != name
    ensures Field(p, name) == None
  {
    assert StrKey(name).s == name;
  }

  /** When every assignment is skipped, the array is empty. */
  lemma ExactlyEmpty(p: PhpArray, fs: Fields)
    requires Exactly(p, fs)
    requires forall i :: 0 <= i < |fs| ==> fs[i].1 == None
    ensures p == []
  {
    if |p| > 0 {
      assert Lookup(p, p[0].0).Some?;
    }
  }
}

=== FILE: response.dfy ===
/**
  The response envelope `{success, data, errors, warnings, info}` and its
  validation (class `NovaPoshtaResponse`). The constructor first copies the
  decoded body into typed properties, filling defaults for missing fields,
  and then validates; an envelope that fails validation is never handed out.
 */
module Response {
  import opened PhpValue
  import opened Failures

  datatype Envelope = Envelope(
    raw: PhpArray,       // getRawData(): the decoded body as given
    status: int,         // getStatusCode()
    success: bool,       // isSuccess()
    data: PhpArray,      // getData()
    errors: PhpArray,    // getErrors()
    warnings: PhpArray,  // getWarnings()
    info: PhpArray       // getInfo()
  )

  const UnknownApiError: string := "Unknown API error"

  /** `$raw[$name] ?? $default` */
  function Coalesce(raw: PhpArray, name: string, default: Value): (v: Value)
    ensures v != Null || default == Null
    ensures Isset(raw, StrKey(name)) ==> v == Field(raw, name).value
    ensures !Isset(raw, StrKey(name)) ==> v == default
  {
    var o := Get(raw, name);
    if o.Some? then o.value else default
  }

  /**
    Storing a value into a `bool` property in a file without strict types:
    scalars are converted, an array raises a `TypeError`.
   */
  function ToBool(v: Value): (r: Option<bool>)
    ensures r.None? <==> v.Null? || v.Arr?
    ensures r == Some(false) <==>
              v == Bool(false) || v == Int(0) || v == Float(0.0) || v == Str("") || v == Str("0")
  {
    match v
    case Bool(b) => Some(b)
    case Int(n) => Some(n != 0)
    case Float(x) => Some(x != 0.0)
    case Str(s) => Some(s != "" && s != "0")
    case _ => None
  }

  /** Storing a value into an `array` property: anything but an array raises a `TypeError`. */
  function ToArray(v: Value): Option<PhpArray> {
    if v.Arr? then Some(v.entries) else None
  }

  /** The value each typed property receives, or nothing when the assignment raises. */
  function SuccessOf(raw: PhpArray): Option<bool> { ToBool(Coalesce(raw, "success", Bool(false))) }
  function ListOf(raw: PhpArray, name: string): Option<PhpArray> { ToArray(Coalesce(raw, name, Arr([]))) }

  /** The body's five fields all fit their typed properties. */
  predicate WellTyped(raw: PhpArray) {
    && SuccessOf(raw).Some?
    && ListOf(raw, "data").Some?
    && ListOf(raw, "errors").Some?
    && ListOf(raw, "warnings").Some?
    && ListOf(raw, "info").Some?
  }

  /** What a successfully constructed response satisfies. */
  predicate Valid(e: Envelope) {
    e.status == 200 && e.success && e.errors == []
  }

  /**
    The constructor's first half: every property set from the body, with
    `false` for a missing `success` and an empty array for each missing list.
   */
  function Fill(raw: PhpArray, status: int): (r: Result<Envelope>)
    ensures r.Ok? <==> WellTyped(raw)
    ensures r.Err? ==> r.failure == TypeFault
    ensures r.Ok? ==> r.value.raw == raw && r.value.status == status
    ensures r.Ok? && Get(raw, "success") == None ==> !r.value.success
    ensures r.Ok? && Get(raw, "data") == None ==> r.value.data == []
    ensures r.Ok? && Get(raw, "errors") == None ==> r.value.errors == []
    ensures r.Ok? && Get(raw, "warnings") == None ==> r.value.warnings == []
    ensures r.Ok? && Get(raw, "info") == None ==> r.value.info == []
    ensures r.Ok? && Get(raw, "data").Some? ==> Get(raw, "data") == Some(Arr(r.value.data))
    ensures r.Ok? && Get(raw, "errors").Some? ==> Get(raw, "errors") == Some(Arr(r.value.errors))
    ensures r.Ok? && Get(raw, "warnings").Some? ==> Get(raw, "warnings") == Some(Arr(r.value.warnings))
    ensures r.Ok? && Get(raw, "info").Some? ==> Get(raw, "info") == Some(Arr(r.value.info))
    ensures r.Ok? && Get(raw, "success").Some? ==> ToBool(Get(raw, "success").value) == Some(r.value.success)
  {
    var success := SuccessOf(raw);
    var data := ListOf(raw, "data");
    var errors := ListOf(raw, "errors");
    var warnings := ListOf(raw, "warnings");
    var info := ListOf(raw, "info");
    if success.None? || data.None? || errors.None? || warnings.None? || info.None? then
      Err(TypeFault)
    else
      Ok(Envelope(raw, status, success.value, data.value, errors.value, warnings.value, info.value))
  }

  /**
    `validate()`: status, then the errors list, then the success flag; the
    first check that fails decides the one failure reported.
   */
  function Validate(e: Envelope): (r: Result<Envelope>)
    ensures r.Ok? <==> Valid(e)
    ensures r.Ok? ==> r.value == e
    ensures e.status != 200 ==> r == Err(HttpError(BadStatus, e.status))
    ensures e.status == 200 && e.errors != [] ==> r == Err(ApiError(ReturnedErrors, e.errors, e.errors))
    ensures e.status == 200 && e.errors == [] && !e.success ==>
              r == Err(ApiError(RequestFailed, [], List([Str(UnknownApiError)])))
  {
    if e.status != 200 then
      Err(HttpError(BadStatus, e.status))
    else if e.errors != [] then
      Err(ApiError(ReturnedErrors, e.errors, e.errors))
    else if !e.success then
      // `$this->errors ?: ['Unknown API error']`; the list is empty here
      var listed := if e.errors != [] then e.errors else List([Str(UnknownApiError)]);
      Err(ApiError(RequestFailed, e.errors, listed))
    else
      Ok(e)
  }

  /** `new NovaPoshtaResponse($raw, $status)`: fill the properties, then validate. */
  function Construct(raw: PhpArray, status: int): (r: Result<Envelope>)
    ensures r.Ok? ==> Valid(r.value) && r.value.raw == raw
    ensures r.Ok? <==> WellTyped(raw) && status == 200 && ListOf(raw, "errors") == Some([])
                       && SuccessOf(raw) == Some(true)
    ensures r.Ok? ==> ListOf(raw, "data") == Some(r.value.data)
    ensures !WellTyped(raw) ==> r == Err(TypeFault)
  {
    match Fill(raw, status)
    case Err(f) => Err(f)
    case Ok(e) => Validate(e)
  }

  /** Status 200 is checked before anything in the body is looked at. */
  lemma StatusCheckedFirst(raw: PhpArray, status: int)
    requires WellTyped(raw)
    requires status != 200
    ensures Construct(raw, status) == Err(HttpError(BadStatus, status))
  {
  }

  /** A non-empty `errors` list wins over `success`, even when `success` is true. */
  lemma ErrorsCheckedBeforeSuccess(raw: PhpArray, es: PhpArray)
    requires WellTyped(raw)
    requires Get(raw, "errors") == Some(Arr(es)) && es != []
    ensures Construct(raw, 200) == Err(ApiError(ReturnedErrors, es, es))
  {
  }

  /** `success` false with no errors: an API error whose message lists only "Unknown API error". */
  lemma UnknownApiErrorReported(raw: PhpArray)
    requires WellTyped(raw)
    requires ListOf(raw, "errors") == Some([])
    requires SuccessOf(raw) == Some(false)
    ensures Construct(raw, 200) == Err(ApiError(RequestFailed, [], List([Str(UnknownApiError)])))
  {
  }

  /** A body without `success` is never accepted: the flag defaults to false. */
  lemma MissingSuccessRejected(raw: PhpArray, status: int)
    requires Get(raw, "success") == None
    ensures Construct(raw, status).Err?
  {
  }
}

=== FILE: sdk.dfy ===
/**
  The SDK facade (class `NovaPoshtaSDK`): direct calls by model and method
  name, with an optional table of canned responses consulted first. The
  table is a PHP array keyed by `"Model.method"`; each entry is an array
  with `response`, optionally `statusCode` and optionally `params`, a
  predicate on the call's properties.
 */
module Sdk {
  import opened PhpValue
  import opened Failures
  import Response
  import HttpClient

  /** The facade's state: its HTTP client and the mock table, if one is installed. */
  datatype Sdk = Sdk(client: HttpClient.Client, mocks: Option<PhpArray>)

  /** A fresh facade has no mock table. */
  function New(client: HttpClient.Client): (s: Sdk)
    ensures s.mocks == None && s.client == client
  {
    Sdk(client, None)
  }

  /** `setMockResponses`: the whole table is replaced. */
  function SetMockResponses(s: Sdk, table: PhpArray): (r: Sdk)
    ensures r.mocks == Some(table) && r.client == s.client
  {
    s.(mocks := Some(table))
  }

  /** `clearMockResponses`: no table at all. */
  function ClearMockResponses(s: Sdk): (r: Sdk)
    ensures r.mocks == None && r.client == s.client
  {
    s.(mocks := None)
  }

  /** `"$modelName.$calledMethod"` */
  function MockKey(modelName: string, calledMethod: string): (k: string)
    ensures |k| == |modelName| + 1 + |calledMethod|
    ensures k[..|modelName|] == modelName && k[|modelName|] == '.'
    ensures k[|modelName| + 1..] == calledMethod
  {
    modelName + "." + calledMethod
  }

  /**
    Model names hold no dot, so every (model, method) pair has a table key
    of its own.
   */
  lemma MockKeyInjective(m1: string, c1: string, m2: string, c2: string)
    requires '.' !in m1 && '.' !in m2
    requires MockKey(m1, c1) == MockKey(m2, c2)
    ensures m1 == m2 && c1 == c2
  {
    FirstDot(m1, c1);
    FirstDot(m2, c2);
    assert |m1| == |m2|;
  }

  /** The first dot of a key is the one after the model name. */
  lemma FirstDot(m: string, c: string)
    requires '.' !in m
    ensures forall j :: 0 <= j < |m| ==> MockKey(m, c)[j] != '.'
    ensures MockKey(m, c)[|m|] == '.'
  {
    var k := MockKey(m, c);
    forall j | 0 <= j < |m| ensures k[j] != '.' {
      assert k[j] == k[..|m|][j];
    }
  }

  /**
    One pair of the predicate: `isset($props[$key]) && $props[$key] === $value`.
    A null predicate value can never hold, since `isset` rejects null.
   */
  predicate Holds(props: PhpArray, p: (Key, Value)) {
    Isset(props, p.0) && Lookup(props, p.0) == Some(p.1)
  }

  /**
    The `foreach` over a predicate array, stopping at the first pair that
    does not hold.
   */
  function MatchesAll(ps: PhpArray, props: PhpArray): (m: bool)
    ensures m <==> forall i :: 0 <= i < |ps| ==> Holds(props, ps[i])
  {
    if |ps| == 0 then true
    else if !Holds(props, ps[0]) then false
    else
      var m := MatchesAll(ps[1..], props);
      assert forall i :: 0 < i < |ps| ==> ps[i] == ps[1..][i - 1];
      m
  }

  /**
    Whether a `params` value admits the call. `foreach` over a value that is
    not an array only warns and visits nothing, so such a predicate matches.
   */
  predicate ParamsMatch(params: Value, props: PhpArray) {
    if params.Arr? then MatchesAll(params.entries, props) else true
  }

  /** An entry the rescan loop would return for this key and these properties. */
  predicate Candidate(e: (Key, Value), key: string, props: PhpArray) {
    && e.0 == StrKey(key)
    && Offset(e.1, "params").Some?
    && ParamsMatch(Offset(e.1, "params").value, props)
  }

  /**
    The rescan after a predicate mismatch: the whole table in order, the
    first entry under the same key whose predicate holds. In a PHP array
    there is at most one entry under a key, so "first" only matters for
    tables that are not arrays (see `RescanAfterMismatch`).
   */
  function Rescan(table: PhpArray, key: string, props: PhpArray): (r: Option<Value>)
    ensures r.None? <==> forall i :: 0 <= i < |table| ==> !Candidate(table[i], key, props)
    ensures r.Some? ==> exists i :: && 0 <= i < |table| && Candidate(table[i], key, props) && table[i].1 == r.value
                                    && forall j :: 0 <= j < i ==> !Candidate(table[j], key, props)
  {
    if |table| == 0 then None
    else if Candidate(table[0], key, props) then Some(table[0].1)
    else
      var r := Rescan(table[1..], key, props);
      assert forall i :: 0 < i < |table| ==> table[i] == table[1..][i - 1];
      r
  }

  /** The outcome of consulting the table: a mock entry to answer with, or fall through. */
  function Select(table: PhpArray, key: string, props: PhpArray): (r: Option<Value>)
    ensures r.Some? ==> Isset(table, StrKey(key))
    ensures !Isset(table, StrKey(key)) ==> r.None?
    ensures r.Some? ==> exists i :: 0 <= i < |table| && table[i] == (StrKey(key), r.value)
  {
    if !Isset(table, StrKey(key)) then None
    else
      LookupFound(table, StrKey(key));
      var entry := Lookup(table, StrKey(key)).value;
      var params := Offset(entry, "params");
      if params.Some? && !ParamsMatch(params.value, props) then Rescan(table, key, props)
      else Some(entry)
  }

  /**
    `$response['response']['data'] ?? []`, returned through an `array`
    return type in a strict-types file.
   */
  function MockData(entry: Value): (r: Result<PhpArray>)
    ensures Offset(entry, "response").None? ==> r == Ok([])
    ensures Offset(entry, "response").Some? && Offset(Offset(entry, "response").value, "data").None? ==> r == Ok([])
    ensures (Offset(entry, "response").Some? && Offset(Offset(entry, "response").value, "data").Some? &&
             !Offset(Offset(entry, "response").value, "data").value.Arr?) ==> r == Err(TypeFault)
    ensures r.Err? ==> r == Err(TypeFault)
  {
    var response := Offset(entry, "response");
    var data := if response.Some? then Offset(response.value, "data") else None;
    if data.None? then Ok([])
    else if data.value.Arr? then Ok(data.value.entries)
    else Err(TypeFault)
  }

  /**
    `new NovaPoshtaResponse($response['response'], $response['statusCode'] ?? 200)`
    from a strict-types file: the response must be an array and the status an integer.
   */
  function MockEnvelope(entry: Value): (r: Result<Response.Envelope>)
    ensures r.Ok? ==> Response.Valid(r.value)
    ensures !entry.Arr? ==> r == Err(TypeFault)
    ensures entry.Arr? && Lookup(entry.entries, StrKey("response")).None? ==> r == Err(TypeFault)
    ensures (entry.Arr? && Lookup(entry.entries, StrKey("response")).Some? &&
             !Lookup(entry.entries, StrKey("response")).value.Arr?) ==> r == Err(TypeFault)
    ensures Offset(entry, "statusCode").Some? && !Offset(entry, "statusCode").value.Int? ==> r == Err(TypeFault)
  {
    var response := if entry.Arr? then Lookup(entry.entries, StrKey("response")) else None;
    var status := Offset(entry, "statusCode");
    if response.None? || !response.value.Arr? then Err(TypeFault)
    else if status.Some? && !status.value.Int? then Err(TypeFault)
    else Response.Construct(response.value.entries, if status.Some? then status.value.n else 200)
  }

  /** Position `i` of the table holds an entry under `key`. */
  predicate EntryUnder(table: PhpArray, i: int, key: string) {
    0 <= i < |table| && table[i].0 == StrKey(key)
  }

  /** `request`: a mock entry's data as is, or the HTTP client's answer, and nothing else. */
  function Request(s: Sdk, modelName: string, calledMethod: string, props: PhpArray := []): (r: Result<PhpArray>)
    ensures || r == HttpClient.Request(s.client, modelName, calledMethod, props)
            || (s.mocks.Some? &&
                exists i :: EntryUnder(s.mocks.value, i, MockKey(modelName, calledMethod)) && r == MockData(s.mocks.value[i].1))
  {
    var selected := if s.mocks.Some? then Select(s.mocks.value, MockKey(modelName, calledMethod), props) else None;
    if selected.Some? then MockData(selected.value)
    else HttpClient.Request(s.client, modelName, calledMethod, props)
  }

  /** `requestWithFullResponse`: a mock entry validated as a response, or the HTTP client's answer. */
  function RequestWithFullResponse(s: Sdk, modelName: string, calledMethod: string,
                                   props: PhpArray := []): (r: Result<Response.Envelope>)
    ensures || r == HttpClient.RequestWithFullResponse(s.client, modelName, calledMethod, props)
            || (s.mocks.Some? &&
                exists i :: EntryUnder(s.mocks.value, i, MockKey(modelName, calledMethod)) && r == MockEnvelope(s.mocks.value[i].1))
    ensures r.Ok? ==> Response.Valid(r.value)
  {
    var selected := if s.mocks.Some? then Select(s.mocks.value, MockKey(modelName, calledMethod), props) else None;
    if selected.Some? then MockEnvelope(selected.value)
    else HttpClient.RequestWithFullResponse(s.client, modelName, calledMethod, props)
  }

  /** With no table installed, both entry points go to the HTTP client with the same arguments. */
  lemma NoTablePassesThrough(s: Sdk, modelName: string, calledMethod: string, props: PhpArray)
    requires s.mocks.None?
    ensures Request(s, modelName, calledMethod, props) ==
              HttpClient.Request(s.client, modelName, calledMethod, props)
    ensures RequestWithFullResponse(s, modelName, calledMethod, props) ==
              HttpClient.RequestWithFullResponse(s.client, modelName, calledMethod, props)
  {
  }

  /** A table without a (non-null) entry under the call's key is passed over. */
  lemma NoEntryPassesThrough(s: Sdk, modelName: string, calledMethod: string, props: PhpArray)
    requires s.mocks.Some?
    requires !Isset(s.mocks.value, StrKey(MockKey(modelName, calledMethod)))
    ensures Request(s, modelName, calledMethod, props) ==
              HttpClient.Request(s.client, modelName, calledMethod, props)
    ensures RequestWithFullResponse(s, modelName, calledMethod, props) ==
              HttpClient.RequestWithFullResponse(s.client, modelName, calledMethod, props)
  {
  }

  /** An entry without `params` answers every call under its key, whatever the properties. */
  lemma EntryWithoutParamsAnswers(s: Sdk, modelName: string, calledMethod: string, props: PhpArray, entry: Value)
    requires s.mocks.Some?
    requires Lookup(s.mocks.value, StrKey(MockKey(modelName, calledMethod))) == Some(entry)
    requires entry != Null
    requires Offset(entry, "params").None?
    ensures Request(s, modelName, calledMethod, props) == MockData(entry)
    ensures RequestWithFullResponse(s, modelName, calledMethod, props) == MockEnvelope(entry)
  {
  }

  /** An entry whose predicate holds answers the call. */
  lemma MatchingEntryAnswers(s: Sdk, modelName: string, calledMethod: string, props: PhpArray, entry: Value)
    requires s.mocks.Some?
    requires Lookup(s.mocks.value, StrKey(MockKey(modelName, calledMethod))) == Some(entry)
    requires Offset(entry, "params").Some?
    requires ParamsMatch(Offset(entry, "params").value, props)
    ensures Request(s, modelName, calledMethod, props) == MockData(entry)
    ensures RequestWithFullResponse(s, modelName, calledMethod, props) == MockEnvelope(entry)
  {
  }

  /** An empty predicate admits every call. */
  lemma EmptyPredicateMatches(props: PhpArray)
    ensures ParamsMatch(Arr([]), props)
  {
  }

  /**
    A `params` value that is set but is not an array admits every call:
    `foreach` over it only warns and visits nothing.
   */
  lemma ScalarPredicateMatches(params: Value, props: PhpArray)
    requires !params.Arr?
    ensures ParamsMatch(params, props)
  {
  }

  /** So an entry whose `params` is a scalar answers every call under its key. */
  lemma ScalarPredicateEntryAnswers(s: Sdk, modelName: string, calledMethod: string, props: PhpArray, entry: Value)
    requires s.mocks.Some?
    requires Lookup(s.mocks.value, StrKey(MockKey(modelName, calledMethod))) == Some(entry)
    requires Offset(entry, "params").Some? && !Offset(entry, "params").value.Arr?
    ensures Request(s, modelName, calledMethod, props) == MockData(entry)
    ensures RequestWithFullResponse(s, modelName, calledMethod, props) == MockEnvelope(entry)
  {
  }

  /** A predicate pair whose value is null never holds, so the predicate never matches. */
  lemma NullPredicateNeverMatches(ps: PhpArray, props: PhpArray, j: int)
    requires 0 <= j < |ps| && ps[j].1 == Null
    ensures !ParamsMatch(Arr(ps), props)
  {
    assert !Holds(props, ps[j]);
  }

  /**
    After the entry under a key fails its predicate, the rescan finds
    nothing: in a PHP array that entry is the only one under the key.
   */
  lemma {:induction false} RescanAfterMismatch(table: PhpArray, key: string, props: PhpArray, entry: Value)
    requires Unique(table)
    requires Lookup(table, StrKey(key)) == Some(entry)
    requires Offset(entry, "params").Some?
    requires !ParamsMatch(Offset(entry, "params").value, props)
    ensures Rescan(table, key, props) == None
  {
    forall i | 0 <= i < |table| ensures !Candidate(table[i], key, props) {
      if table[i].0 == StrKey(key) {
        LookupUnique(table, i);
      }
    }
  }

  /** After a predicate mismatch the table selects no entry. */
  lemma MismatchSelectsNothing(table: PhpArray, key: string, props: PhpArray, entry: Value)
    requires Unique(table)
    requires Lookup(table, StrKey(key)) == Some(entry)
    requires Offset(entry, "params").Some?
    requires !ParamsMatch(Offset(entry, "params").value, props)
    ensures Select(table, key, props) == None
  {
    RescanAfterMismatch(table, key, props, entry);
  }

  /** A predicate mismatch always falls through to the HTTP client with the same arguments. */
  lemma MismatchFallsThrough(s: Sdk, modelName: string, calledMethod: string, props: PhpArray, entry: Value)
    requires s.mocks.Some? && Unique(s.mocks.value)
    requires Lookup(s.mocks.value, StrKey(MockKey(modelName, calledMethod))) == Some(entry)
    requires Offset(entry, "params").Some?
    requires !ParamsMatch(Offset(entry, "params").value, props)
    ensures Request(s, modelName, calledMethod, props) ==
              HttpClient.Request(s.client, modelName, calledMethod, props)
    ensures RequestWithFullResponse(s, modelName, calledMethod, props) ==
              HttpClient.RequestWithFullResponse(s.client, modelName, calledMethod, props)
  {
    MismatchSelectsNothing(s.mocks.value, MockKey(modelName, calledMethod), props, entry);
  }

  /**
    `request` hands back a mock's `data` without validating the mock: a
    `success` of false, a non-empty `errors` list or any `statusCode` make no
    difference.
   */
  lemma RequestSkipsValidation(entry: Value, response: PhpArray, data: PhpArray)
    requires Offset(entry, "response") == Some(Arr(response))
    requires Get(response, "data") == Some(Arr(data))
    ensures MockData(entry) == Ok(data)
  {
  }

  /** `requestWithFullResponse` validates the mock at status 200 when the entry names no status. */
  lemma FullResponseValidatesMock(entry: Value, response: PhpArray)
    requires entry.Arr?
    requires Lookup(entry.entries, StrKey("response")) == Some(Arr(response))
    requires Offset(entry, "statusCode").None?
    ensures MockEnvelope(entry) == Response.Construct(response, 200)
  {
  }

  /** An entry naming an integer `statusCode` is validated at that status. */
  lemma NamedStatusValidatesMock(entry: Value, response: PhpArray, status: int)
    requires entry.Arr?
    requires Lookup(entry.entries, StrKey("response")) == Some(Arr(response))
    requires Offset(entry, "statusCode") == Some(Int(status))
    ensures MockEnvelope(entry) == Response.Construct(response, status)
  {
  }

  /**
    A mock reporting `success` false still answers `request` with its data,
    while `requestWithFullResponse` turns the same entry into an API error.
   */
  lemma FailedMockOnlyFailsInFull(entry: Value, response: PhpArray, data: PhpArray)
    requires entry.Arr?
    requires Lookup(entry.entries, StrKey("response")) == Some(Arr(response))
    requires Offset(entry, "statusCode").None?
    requires Response.WellTyped(response)
    requires Get(response, "data") == Some(Arr(data))
    requires Get(response, "success") == Some(Bool(false))
    ensures MockData(entry) == Ok(data)
    ensures MockEnvelope(entry).Err? && MockEnvelope(entry).failure.ApiError?
  {
  }

  /** After `clearMockResponses` every call reaches the HTTP client unchanged. */
  lemma ClearRestoresPassThrough(s: Sdk, modelName: string, calledMethod: string, props: PhpArray)
    ensures Request(ClearMockResponses(s), modelName, calledMethod, props) ==
              HttpClient.Request(s.client, modelName, calledMethod, props)
    ensures RequestWithFullResponse(ClearMockResponses(s), modelName, calledMethod, props) ==
              HttpClient.RequestWithFullResponse(s.client, modelName, calledMethod, props)
  {
  }
}

=== FILE: tracking_api.dfy ===
/** Shipment tracking (class `TrackingApi`, model "TrackingDocument"). */
module TrackingApi {
  import opened PhpValue
  import opened BaseApi

  const ModelName: string := "TrackingDocument"

  /** The `$document` of `getStatusDocuments`: its number, and the phone when one is given. */
  function StatusDocument(documentNumber: string, phone: Option<string>): (d: PhpArray)
    ensures Exactly(d, [("DocumentNumber", Some(Str(documentNumber))), ("Phone", OptStr(phone))])
    ensures d == Present([("DocumentNumber", Some(Str(documentNumber))), ("Phone", OptStr(phone))])
  {
    var fs := [("DocumentNumber", Some(Str(documentNumber))), ("Phone", OptStr(phone))];
    BuildExactly(fs);
    BuildInOrder(fs);
    Build(fs)
  }

  /** `getStatusDocuments($documentNumber, ?$phone)`: a one-document list under `Documents`. */
  function GetStatusDocuments(documentNumber: string, phone: Option<string> := None): (c: Call)
    ensures c.modelName == ModelName && c.calledMethod == "getStatusDocuments"
    ensures Exactly(c.props, [("Documents", Some(Arr(List([Arr(StatusDocument(documentNumber, phone))]))))])
  {
    var fs := [("Documents", Some(Arr(List([Arr(StatusDocument(documentNumber, phone))]))))];
    BuildExactly(fs);
    Call(ModelName, "getStatusDocuments", Build(fs))
  }

  /** `getStatusDocumentsBatch($documents)`: the caller's list as is, under the same method. */
  function GetStatusDocumentsBatch(documents: PhpArray): (c: Call)
    ensures c.modelName == ModelName && c.calledMethod == "getStatusDocuments"
    ensures Exactly(c.props, [("Documents", Some(Arr(documents)))])
  {
    var fs := [("Documents", Some(Arr(documents)))];
    BuildExactly(fs);
    Call(ModelName, "getStatusDocuments", Build(fs))
  }

  /** `getStatusHistory($documentNumber)`: a one-document list holding the number alone. */
  function GetStatusHistory(documentNumber: string): (c: Call)
    ensures c.modelName == ModelName && c.calledMethod == "getStatusHistory"
    ensures Exactly(c.props, [("Documents", Some(Arr(List([Arr(Build([("DocumentNumber", Some(Str(documentNumber)))]))]))))])
  {
    var fs := [("Documents", Some(Arr(List([Arr(Build([("DocumentNumber", Some(Str(documentNumber)))]))]))))];
    BuildExactly(fs);
    Call(ModelName, "getStatusHistory", Build(fs))
  }

  /** Tracking one document is the batch call with a one-element list. */
  lemma SingleIsBatchOfOne(documentNumber: string, phone: Option<string>)
    ensures GetStatusDocuments(documentNumber, phone) ==
              GetStatusDocumentsBatch(List([Arr(StatusDocument(documentNumber, phone))]))
  {
  }

  /** Without a phone, the tracked document is `{DocumentNumber}` alone. */
  lemma NoPhoneNumberOnly(documentNumber: string)
    ensures StatusDocument(documentNumber, None) == Build([("DocumentNumber", Some(Str(documentNumber)))])
    ensures StatusDocument(documentNumber, None) == [(StrKey("DocumentNumber"), Str(documentNumber))]
  {
    var one := [("DocumentNumber", Some(Str(documentNumber)))];
    var fs := [("DocumentNumber", Some(Str(documentNumber))), ("Phone", OptStr(None))];
    assert StatusDocument(documentNumber, None) == Build(fs);
    assert fs[..1] == one;
    assert Build(fs) == Build(one);
    assert one[..0] == [];
    assert Build(one) == Put([], StrKey("DocumentNumber"), Str(documentNumber));
  }

  /**
    The history request carries the same property array as tracking the
    document without a phone: no `Phone` is ever sent.
   */
  lemma HistoryAsksLikeTracking(documentNumber: string)
    ensures GetStatusHistory(documentNumber).props == GetStatusDocuments(documentNumber, None).props
    ensures Field(GetStatusHistory(documentNumber).props, "Documents") ==
              Some(Arr(List([Arr([(StrKey("DocumentNumber"), Str(documentNumber))])])))
  {
    NoPhoneNumberOnly(documentNumber);
  }

  /** Tracking one document without a phone is the batch call with `[{DocumentNumber}]`. */
  lemma NoPhoneIsBatchOfNumber(documentNumber: string)
    ensures GetStatusDocuments(documentNumber, None) ==
              GetStatusDocumentsBatch(List([Arr([(StrKey("DocumentNumber"), Str(documentNumber))])]))
  {
    NoPhoneNumberOnly(documentNumber);
  }
}
